=== FILE: README.md ===
# image-tools build-graph compiler, in Dafny

A model of the pure core of `image-tools`. These are the Python scripts that turn a product
catalog into a Docker bake file, then build the images or check them with
OpenShift's `preflight`. The model covers:

- **The bake-file compiler** (`bake.py`):
  - build arguments, tags and target names;
  - dependency `contexts` and cache references, producing one target per product version;
  - one group per product, plus a `default` group;
  - the product selector;
  - the round-robin shard filter;
  - the `docker buildx bake` argument vector.
- **The input validators** (`args.py`): the image-version format check and the architecture whitelist.
- **The preflight helpers** (`preflight.py`):
  - collecting the image tags a bake-file name stands for;
  - the `endswith(image_version)` filter;
  - the per-image `preflight check container` invocations.

## How the model is built

- **Python dicts** are ordered association lists, `Dict<V> = seq<(string, V)>` (`dicts.dfy`).
  - Lookup returns the last pair with the key.
  - `d[k] = v` replaces the value in place when `k` is present, and appends otherwise.
  - `d.update(e)` is the same assignment, repeated over `e`.

  Key order is observable in the bake file (group member order) and in the cache
  references (`k=v` order). Lemmas state it with `AppendNew`/`Dedup`: keys in order of
  first insertion.
- **Exceptions** are values. `Result` is `Success(value)` or `Failure(error)`. The error is
  one of the Python exceptions the code can raise: `KeyError(key)`, `ValueError(message)`,
  `IndexError`, `ZeroDivisionError`, `RecursionError`.
- **Volatile inputs are parameters:**
  - one creation time and one git revision for the whole run (`Stamp`; see "Left out");
  - the command-line options (`Options`, `PreflightArgs`);
  - the catalog (`Catalog`: products and cache backends);
  - the recursion depth the interpreter still allows (`ImagesFor`'s `depth`).
- **Python's `%`** rounds the quotient down, so the remainder has the sign of the divisor.
  It is written out as `Shards.PyMod`, because Dafny's `%` is Euclidean.
- **A bake file** is `Bakefile(target, group)`. A group maps straight to its list of
  member names; Python nests that list under a `targets` key.

### Where the code and the documented behaviour differ

This model follows the code:

- The dev image version is exactly `0.0.0-dev`. There is no general `-suffix` form; the only
  suffix is `-rcN`, with N from 1 to 99 and no leading zero.
- The minor field is `[1-9][0-2]?`, so minors `20`, `21` and `92` are accepted, and so is `4`.
- A product selector is split on **every** `=` and never on `,`. `p=v1=v2` names two versions;
  `p=2.4,2.6` names the single version `2.4,2.6`. Named versions are never checked against
  the catalog.
- The shard filter checks neither `shard_index < shard_count` nor the signs of its arguments.
  - An index outside the remainders' range selects nothing.
  - A count of zero raises `ZeroDivisionError`, but only when there is a target to filter.
- `targets_for_selector` reads `product["versions"]` for a bare product name, which raises
  `KeyError('versions')` when the product has none. `generate_bakefile` uses
  `product.get("versions", [])` and treats the product as having no versions.

## Model

| member | source | states |
|---|---|---|
| ImageArgs.CheckImageVersionFormat | src/image_tools/args.py:59-79 | Succeeds exactly when the whole string matches one of the three formats, each stated as the regular language it denotes. It then returns its input unchanged; otherwise `ValueError("Invalid image version: <input>")` |
| ImageArgs.ScanReleaseCorrect | src/image_tools/args.py:9 | The positional scanner accepts exactly the strings of `[2-9][0-9]\.[1-9][0-2]?\.\d+` |
| ImageArgs.ScanRcCorrect | src/image_tools/args.py:10 | The positional scanner accepts exactly the strings of `<release>-rc[1-9]\d?` |
| ImageArgs.AcceptedVersionShape | src/image_tools/args.py:8-12 | Every accepted version other than the dev one: two-digit major (first digit 2-9), a dot, a minor starting 1-9, and a final digit |
| ImageArgs.DevSuffixRejected | src/image_tools/args.py:11 | `0.0.0-dev` followed by anything non-empty is rejected |
| ImageArgs.DocumentedAccepted | src/image_tools/args.py:63-66 | `23.4.0`, `23.4.0-rc1` and `0.0.0-dev` are accepted |
| ImageArgs.DocumentedRejected | src/image_tools/args.py:67-74 | `23.04.0` and `23.4.0.prerelease` are rejected |
| ImageArgs.MinorQuirksAccepted | src/image_tools/args.py:9-10 | The minor pattern admits `20` and `92`; rc numbers go up to `99` |
| ImageArgs.OutOfRangeRejected | src/image_tools/args.py:9-10 | Minor `13`, major `19` and `rc0` are rejected |
| ImageArgs.NoGenericSuffix | src/image_tools/args.py:10-11 | `0.0.0-dev-foo`, `-rc100` and `-beta` are rejected |
| ImageArgs.CheckArchitectureInput | src/image_tools/args.py:145-153 | Succeeds with its input unchanged exactly for `linux/amd64` and `linux/arm64`; otherwise `ValueError` naming the input and the supported list |
| Bake.BuildImageArgs | src/image_tools/bake.py:25-40 | The result is a dict with `RELEASE` equal to the release version, whatever the input held. Every other key looks up what the upper-cased input gives it (last writer wins). Keys come in order of first appearance, with `RELEASE` last unless already present |
| Bake.BuildImageArgsUpper | src/image_tools/bake.py:36-38 | Every key of the result is upper case |
| Bake.BuildImageArgsKeepsValue | src/image_tools/bake.py:36-37 | An input key with no later upper-case collision, and not `RELEASE`, appears upper-cased with its value unchanged |
| Bake.BuildImageTags | src/image_tools/bake.py:43-50 | Exactly one tag. It starts with `<image>:<product version>`, ends with `-stackable<image version>`, and has exactly their combined length |
| Bake.BuildImageTagsInjective | src/image_tools/bake.py:43-50 | For a fixed image and image version, the tag determines the product version |
| Bake.TargetName | src/image_tools/bake.py:87-91 | The name is `<product>-<version>`: the product untouched, then `-`, then the version with each `.` replaced by `_` and nothing else changed. Length `\|product\| + 1 + \|version\|` |
| Bake.TargetNameSameProduct | src/image_tools/bake.py:87-91 | For one product, two versions give the same name iff they agree after replacing `.` by `_` |
| Bake.TargetNameInjective | src/image_tools/bake.py:87-91 | When products have no `-` and versions no `_`, the name determines both product and version |
| Bake.TargetNameCollisions | src/image_tools/bake.py:87-91 | Without those conditions names collide: `a-b`@`1` vs `a`@`b-1`, and `1.0` vs `1_0` |
| Bake.ContextsShape | src/image_tools/bake.py:130-134 | `contexts` is a dict. Each entry is `stackable/image/<k>` → `target:<name of k at v>` for some version-map entry `k: v` with `k` a catalog product |
| Bake.ContextsLookup | src/image_tools/bake.py:130-134 | Looking up `stackable/image/<k>` gives `target:<name of k at its version>` iff `k` is a product name and the version map has `k`; otherwise nothing |
| Bake.ContextLabelInjective | src/image_tools/bake.py:131 | Different dependencies get different context names |
| Bake.TargetFor | src/image_tools/bake.py:106-141 | none; see Bake.TargetForShape (including its cache references), Bake.VolatileFieldsIsolated, Bake.ContextsShape, Bake.ContextsLookup |
| Bake.ContextsFor | src/image_tools/bake.py:130-134 | none; see Bake.ContextsShape, Bake.ContextsLookup |
| Bake.TargetForShape | src/image_tools/bake.py:106-141 | A target has the one tag `<registry>/<org>/<product>:<pv>-stackable<iv>` and `RELEASE` = image version. Platforms are `[architecture]` and context is `.`. `cache-to` and `cache-from` are both the cache location generated for the target's own name and the run's architecture when caching is on, and absent otherwise; there is one entry per backend |
| Bake.VolatileFieldsIsolated | src/image_tools/bake.py:110-124 | The timestamp and revision affect only `annotations` and `labels`; every other field is the same |
| Bake.VersionTarget | src/image_tools/bake.py:94-143 | A version map without `product` raises `KeyError('product')`. Otherwise the entry is keyed by the target name of the product at that version. Its target has the run's shape and is wired to the map: the one tag `<registry>/<org>/<product>:<pv>-stackable<iv>`, Dockerfile `<product>/Dockerfile`, the map's build arguments, the map's dependency contexts, and, when caching is on, `cache-to` = `cache-from` = the cache location generated for that target name (absent otherwise) |
| Bake.WiredTarget | src/image_tools/bake.py:127-134 | In a target wired to a version map, `stackable/image/<k>` leads to `target:<name of k at its version>` iff `k` is a catalog product the map names, and to nothing otherwise; `RELEASE` is the image version and every other argument is the map's, upper-cased |
| Bake.VersionResults | src/image_tools/bake.py:69-72 | One outcome per version map, in order. Each fails exactly when its map lacks `product` (with `KeyError('product')`), else carries its target name and a target of the stated shape, wired to that version map (exact tag, Dockerfile, build arguments, contexts and cache references) |
| Bake.ProductTargets | src/image_tools/bake.py:66-72 | A product's dict fails iff some version map lacks `product`. Its keys are the target names in version order, repeats collapsed to first place; its value is the entries applied with `update` |
| Bake.ProductTargetsContents | src/image_tools/bake.py:66-72 | The product's dict is a dict, every lookup gives the last entry with that name, and every target has the stated shape |
| Bake.GenerateBakefile | src/image_tools/bake.py:53-84 | Fails (with `KeyError('product')`) iff some declared version lacks `product`. `target` is every product's entries merged in order; `group` maps each product to its target names, then `default` to the distinct product names |
| Bake.BakefileTargetOrder | src/image_tools/bake.py:63-84 | The target keys are all target names across products in catalog and version order, each once at its first position |
| Bake.BakefileTargetLookup | src/image_tools/bake.py:69-76 | Looking up a target gives the last target produced under that name: a later duplicate overwrites in place |
| Bake.BakefileTargetShapes | src/image_tools/bake.py:69-76 | Every target of the bake file has the stated shape |
| Bake.BakefileTargetsWired | src/image_tools/bake.py:69-76 | Every target of the bake file is the target of some product's version map, under that version's target name, wired to it: its tag, Dockerfile, build arguments and contexts are that map's, and its cache references are generated for its own target name |
| Bake.ProductTargetsWired | src/image_tools/bake.py:69-72 | Every entry of a product's merged targets is the target of one of its version maps, under that version's name and wired to it, cache references included |
| Bake.BakefileGroups | src/image_tools/bake.py:73-80 | `default` lists the distinct product names in catalog order and is computed before it is inserted. Group keys are the product names then `default`; every other group is its product's entry |
| Bake.BakefileProductGroup | src/image_tools/bake.py:73-75 | A product's group lists its target names in version order, repeats collapsed to first place (unless a later product has the same name or it is named `default`) |
| CacheRefs.GenerateCacheLocation | src/image_tools/bake.py:192-205 | One string per backend, in backend order. Each is that backend's own rewrite serialised: the loop's rebinding of `arch` never changes a later backend |
| CacheRefs.Step | src/image_tools/bake.py:196-202 | none; see CacheRefs.RewriteKeys, CacheRefs.RewriteValues, CacheRefs.RewriteLeadingPrefix |
| CacheRefs.RewriteKeys | src/image_tools/bake.py:196-202 | A backend with `ref_prefix` keeps its key order. `ref` stays in place or goes last, and `ref_prefix` is removed |
| CacheRefs.RewriteValues | src/image_tools/bake.py:196-202 | After the rewrite, `ref` = `<ref_prefix>:<target>-<arch with / replaced by _>`. `ref_prefix` is gone; every other key keeps its value |
| CacheRefs.SerializeRoundTrip | src/image_tools/bake.py:203 | When keys have no `,`/`=` and values no `,`, splitting the `k=v,k=v` string gives back the backend, order included |
| CacheRefs.RewriteLeadingPrefix | src/image_tools/bake.py:196-202 | A backend starting with `ref_prefix` and without `ref` becomes its other entries followed by `ref` |
| CacheRefs.RegistryExample | src/image_tools/bake.py:192-205 | `{ref_prefix: P, type: registry}` for `linux/amd64` gives `type=registry,ref=P:<target>-linux_amd64` |
| Selector.FindProductSome | src/image_tools/bake.py:150 | A product is found iff the catalog has one with that name, and the one found has that name |
| Selector.ProductIndex | src/image_tools/bake.py:150 | The position found holds the name, and no earlier product has it |
| Selector.DeclaredTargets | src/image_tools/bake.py:153 | A product's declared versions give their target names in order, or `KeyError('product')` when one lacks `product` |
| Selector.SelectorUnknownProduct | src/image_tools/bake.py:149-152 | An unknown product raises `ValueError("Requested unknown product [<name>]")` |
| Selector.SelectorExplicitVersions | src/image_tools/bake.py:149-154 | A selector with `=` gives the target names at the versions written, in order and unchecked |
| Selector.SelectorBareName | src/image_tools/bake.py:149-154 | A bare name gives its first product's declared targets, or `KeyError('versions')` when it declares none |
| Selector.TargetsForSelector | src/image_tools/bake.py:146-155 | The selectors used are the ones given, or every product name in catalog order when none are. It succeeds iff every selector used succeeds on its own, and the targets are then each selector's targets concatenated in selector order. With no selectors and a catalog of distinct `=`-free names that all declare versions, the targets are every product's target names in catalog and version order. On failure, the exception is that of the first selector that fails |
| Selector.SelectAllError | src/image_tools/bake.py:148-155 | A failed selection raises the exception of the first selector that fails, every earlier one succeeding |
| Selector.SelectAllValue | src/image_tools/bake.py:146-155 | When every selector succeeds, the selection is their target lists concatenated in selector order |
| Selector.SelectorTargets | src/image_tools/bake.py:149-154 | none; see Selector.SelectorUnknownProduct, Selector.SelectorExplicitVersions, Selector.SelectorBareName, Selector.NoCommaSplit |
| Selector.SelectAll | src/image_tools/bake.py:148-155 | none; see Selector.SelectAllSucceeds, Selector.SelectAllConcat, Selector.SelectAllValue, Selector.SelectTwice |
| Selector.SelectAllSucceeds | src/image_tools/bake.py:148-155 | Selection succeeds iff every selector does |
| Selector.SelectAllConcat | src/image_tools/bake.py:148-155 | Selecting `a + b` gives the targets of `a` then those of `b`: selector order, nothing deduplicated |
| Selector.SelectTwice | src/image_tools/bake.py:148-155 | A selector given twice yields its targets twice |
| Selector.ExplicitVersionsUnchecked | src/image_tools/bake.py:149-154 | `p=v1=...=vn` gives the targets of `p` at `v1`..`vn` in order, declared or not; only the product must exist |
| Selector.NoCommaSplit | src/image_tools/bake.py:149 | `p=a,b` is the single version `a,b`, even for a product declaring no versions |
| Selector.BareNameSelectsDeclared | src/image_tools/bake.py:149-154 | A bare product name selects the targets of all its declared versions |
| Selector.DefaultSelection | src/image_tools/bake.py:146-155 | Selecting every product name, for a catalog of distinct `=`-free names that all declare versions, gives every product's declared targets in catalog order |
| Selector.DefaultSelectionIsBakefile | src/image_tools/bake.py:146-155 | Under the same conditions, the default selection with repeats dropped is the bake file's target list |
| Shards.FilterTargetsForShard | src/image_tools/bake.py:158-159 | `ZeroDivisionError` iff the count is 0 and there is a target. Otherwise the targets at positions `i` with Python's `i % count == index`, in order |
| Shards.Shard | src/image_tools/bake.py:159 | none; see Shards.ShardMembers, Shards.ShardStride, Shards.ShardOutOfRange, Shards.ShardsPartition |
| Shards.PyModSpec | src/image_tools/bake.py:159 | Python's `%`: `a == (a // b) * b + a % b`, with the remainder in `[0, b)` for positive `b` and `(b, 0]` for negative `b` |
| Shards.ModUnique | src/image_tools/bake.py:159 | For positive `b`, quotient and remainder are the only pair with `0 <= r < b` |
| Shards.ShardMembers | src/image_tools/bake.py:159 | The shard is no longer than the list, and a value is in it iff it sits at a position `i` with `i % count == index` |
| Shards.ShardStride | src/image_tools/bake.py:159 | For `0 <= index < count`, the shard's `j`-th element is the target at `index + j*count`, up to the end of the list |
| Shards.ShardOutOfRange | src/image_tools/bake.py:159 | For a positive count, an index below 0 or at least the count selects nothing |
| Shards.NegativeCountExample | src/image_tools/bake.py:159 | With count `-2`, index `-1` selects position 1 and index `0` selects positions 0 and 2 |
| Shards.ShardsPartition | src/image_tools/bake.py:159 | The shards `0..count-1` together hold every target exactly once (as a multiset): no loss, no duplication |
| Shards.ShardsLast | src/image_tools/bake.py:159 | The last target is in one of the shards `0..k-1` iff its position's remainder is below `k`, and then only once |
| Commands.BakeCommand | src/image_tools/bake.py:162-189 | `docker buildx bake --file -`, then the targets in order, then one mode flag: `--print` if dry, else `--push` if pushing, else `--load`. The bake file goes to stdin |
| Commands.BakeCommandRoundTrip | src/image_tools/bake.py:170-187 | The argument vector gives back its targets and mode |
| Commands.DryRunNeverPushes | src/image_tools/bake.py:170-171 | A dry run ends in `--print`; `--push` appears only as a target name |
| Preflight.TargetImages | src/image_tools/preflight.py:25-33 | A name that is not a group stands for its own target's tags, or none |
| Preflight.UnknownNameHasNoImages | src/image_tools/preflight.py:28-31 | A name that is neither a group nor a target stands for no images |
| Preflight.LeafImages | src/image_tools/preflight.py:28-29 | Names none of which is a group stand for their tags, concatenated in order |
| Preflight.GroupImages | src/image_tools/preflight.py:25-33 | A group of plain targets stands for its members' tags in member order, then its own target's tags |
| Preflight.ProductImages | src/image_tools/preflight.py:25-33 | In a generated bake file, a product's images are its targets' tags in version order (each target once), then its own target's tags. Holds when the product's members are targets and not groups, the depth is above 1, the product is not named `default`, and no later product has the same name |
| Preflight.NestedImages | src/image_tools/preflight.py:25-33 | A list of groups whose members are plain targets stands for each group's members' tags and then its own tags, group after group in list order |
| Preflight.DefaultImages | src/image_tools/preflight.py:25-33 | In a generated bake file, `default` stands for every product's images in catalog order, each as `Preflight.ProductImages` gives it, then the tags of any target named `default`. Holds when product names are distinct and none is `default`, every product's members are targets, and the depth is above 2 |
| Preflight.DefaultMembers | src/image_tools/bake.py:69-80 | With distinct product names, none of them `default`, the `default` group lists the products in catalog order, and each product's group lists its target names in version order, each once |
| Preflight.ImagesFor | src/image_tools/preflight.py:25-33 | none; see Preflight.TargetImages, Preflight.UnknownNameHasNoImages, Preflight.LeafImages, Preflight.GroupImages, Preflight.ProductImages, Preflight.NestedImages, Preflight.DefaultImages, Preflight.SelfMemberRecursionError |
| Preflight.SelfMemberRecursionError | src/image_tools/preflight.py:28-29 | A group whose first member is itself raises `RecursionError` at every depth |
| Preflight.ImagesToCheck | src/image_tools/preflight.py:102-107 | Every kept image ends with the image version, and an image is kept iff it does. No images give none; one image is kept iff it ends with the version |
| Preflight.ImagesToCheckCounts | src/image_tools/preflight.py:102-107 | Each image ending with the version occurs in the result exactly as often as in the input; every other image not at all |
| Preflight.ImagesToCheckConcat | src/image_tools/preflight.py:102-107 | The filter keeps order: it distributes over concatenation |
| Preflight.ImagesToCheckIdempotent | src/image_tools/preflight.py:102-107 | Filtering twice is filtering once |
| Preflight.SubmitArgs | src/image_tools/preflight.py:60-71 | Succeeds iff the product has a project and the project has an `id`. Then `--loglevel trace --submit --pyxis-api-token <token> --certification-project-id ospid-<id>`. A missing product raises `KeyError(<product>)`, a missing `id` raises `KeyError('id')` |
| Preflight.PlatformArgs | src/image_tools/preflight.py:72-79 | `IndexError` iff the architecture contains no `linux/`. Otherwise `--platform` and the text that starts right after the first `linux/` and runs to the next `linux/` or the end; it contains no `linux/` |
| Preflight.OptionArgs | src/image_tools/preflight.py:60-79 | Succeeds iff, when submitting, the product has a project with an `id`, and, when an architecture is given, it contains `linux/`. A missing project is reported first. On success, when submitting, the first 7 arguments are exactly the submission arguments; when an architecture is given, the vector ends with `--platform` and the text between the first `linux/` and the next one or the end; the length is 7 and 2 accordingly |
| Preflight.PlatformOfSupported | src/image_tools/preflight.py:72-79 | For a whitelisted architecture, the platform is the architecture without its `linux/` prefix |
| Preflight.PreflightCommands | src/image_tools/preflight.py:55-82 | Fails iff there is an image and the options cannot be built, with their exception. Otherwise keys are the distinct images in order, and each maps to `[executable, "check", "container", img]` plus the options |
| Preflight.CommandsOutcome | src/image_tools/preflight.py:55-82 | Building the commands fails iff there is an image and the options cannot be built, and then with the options' exception |
| Preflight.CommandsLookup | src/image_tools/preflight.py:55-82 | When the commands are built, their keys are the distinct images in order, and each image maps to `[executable, "check", "container", img]` plus the options |
| Text.Split | src/image_tools/bake.py:149 | `s.split(sep)`: at least one piece, and joining the pieces with the separator gives `s` back |
| Text.SplitPieces | src/image_tools/bake.py:149 | No piece of `s.split(sep)` contains the separator |
| Text.SplitLeading | src/image_tools/preflight.py:78 | A string that starts with the separator and has no other occurrence of it splits into `""` and the rest |
| Text.SplitJoin | src/image_tools/bake.py:149 | For a one-character separator, splitting undoes joining when no piece contains it |
| Text.SecondPiece | src/image_tools/preflight.py:78 | The second piece of `s.split(sep)` starts right after the first occurrence of `sep` and runs to the next occurrence or the end, with no occurrence starting inside it |
| Text.FirstPiece | src/image_tools/preflight.py:78 | The first piece of `t.split(sep)` is the prefix of `t` up to the first occurrence of `sep`, or all of `t` when there is none |
| Text.SecondPieceUnique | src/image_tools/preflight.py:78 | At most one string is the second piece of `s` split on `sep`, and it does not contain `sep` |
| Dicts.Put | src/image_tools/bake.py:201 | `d[k] = v`: keys keep their order with `k` appended only when new; looking up `k` gives `v` and every other key is unchanged; no other pair appears |
| Dicts.PutAll | src/image_tools/bake.py:70-72 | `d.update(ps)`: keys in order of first insertion; a key of `ps` looks up its last value there, any other key its value in `d`; no other pair appears |
| Dicts.Remove | src/image_tools/bake.py:202 | `del d[k]`: the pairs left are exactly the pairs of `d` whose key is not `k`; key order and lookups in Dicts.RemoveKeys and Dicts.RemoveGet |
| Dicts.RemoveKeys | src/image_tools/bake.py:202 | After `del d[k]` the keys are the old keys in order with `k` left out |
| Dicts.RemoveGet | src/image_tools/bake.py:202 | After `del d[k]`, `k` has no value and every other key keeps its value |
| Dicts.DedupDistinct | src/image_tools/bake.py:78-80 | `list(dict.fromkeys(ys))` is `ys` itself when `ys` has no duplicates |

## Left out

- `main` of `bake.py` and of `preflight.py`: printing, exit codes, running the subprocess,
  writing the tags file and logging. These are I/O orchestration.
- `get_git_revision` and `datetime.now`: external and volatile, so they are the parameter
  `Stamp`. A failed `git` call, where Python would write `None` into the labels, is not modelled.
- Bake.GenerateBakefile: one creation time for the whole run; Python takes a fresh `datetime.now()`
  per version target, so its targets' `created` values may differ. The revision is the same for
  every target in both, since `get_git_revision` is cached (`bake.py`, line 241).
  `Bake.VolatileFieldsIsolated` shows that only `annotations` and `labels` depend on the stamp.
- `json.dumps` of the bake file for the bake command's stdin: the `Bakefile` value stands in for its JSON text.
- `get_preflight_failures`: runs a subprocess and parses JSON.
- `bake_args`, `preflight_args`, `load_configuration` and any build-argument override resolver:
  argparse plumbing and module import, not part of this model. `completions.py` is shell-script
  text generation and is not part of this model.
- `lib.py` (`Command`) and `version.py` are not part of this model. `Command` is represented by
  `Commands.Command` and by plain argument vectors in `Preflight`.
- The `AttributeError` fallback for a configuration without `cache` is represented by `Catalog.cache` being `None`.
- A product entry without a `name` key (Python would raise `KeyError('name')`): every `Product` has a name.
- `architecture` is treated as one string, as `bake.py` and `preflight.py` use it. A command-line
  list is not modelled.
- Bake.UpperKeys: `str.upper` is modelled for ASCII letters only. Python also upper-cases other
  alphabets and some characters change length (`ß` → `SS`).
- ImageArgs.CheckImageVersionFormat: `\d` is modelled as the ASCII digits `0`-`9`. Python's `\d`
  on `str` patterns also matches other Unicode decimal digits.
- Preflight.ImagesFor: the interpreter's recursion limit is the parameter `depth`, not
  the fixed limit of a real interpreter, and the stack depth of the caller is not modelled.

=== FILE: args.dfy ===
/**
 The input validators of `args.py`: the image-version format check (three regular
 expressions, each matched against the WHOLE string) and the architecture whitelist.

 Each regular expression is written out twice: once as the regular language itself
 (`ReleasePattern`, `RcPattern`, `DevPattern`: "there is a way to cut the string into the
 pieces the expression names") and once as a scanner that looks at fixed positions
 (`ScanRelease`, `ScanRc`). The validator runs the scanners; the lemmas prove they accept
 exactly the regular language.
 */
module ImageArgs {
  import opened Results
  import opened Text

  const DevVersion: string := "0.0.0-dev"

  const SupportedArchitectures: seq<string> := ["linux/amd64", "linux/arm64"]

  /** `[2-9][0-9]` */
  predicate IsMajor(t: string) {
    |t| == 2 && '2' <= t[0] <= '9' && IsDigit(t[1])
  }

  /** `[1-9][0-2]?` */
  predicate IsMinor(t: string) {
    (|t| == 1 || |t| == 2) && '1' <= t[0] <= '9' && (|t| == 2 ==> '0' <= t[1] <= '2')
  }

  /** `\d+` */
  predicate IsDigits(t: string) {
    |t| >= 1 && forall i :: 0 <= i < |t| ==> IsDigit(t[i])
  }

  /** `[1-9]\d?` */
  predicate IsRcNumber(t: string) {
    (|t| == 1 || |t| == 2) && '1' <= t[0] <= '9' && (|t| == 2 ==> IsDigit(t[1]))
  }

  /** The whole of `s` matches `[2-9][0-9]\.[1-9][0-2]?\.\d+`. */
  ghost predicate ReleasePattern(s: string) {
    exists i, j ::
      0 <= i < j < |s| && s[i] == '.' && s[j] == '.' &&
      IsMajor(s[..i]) && IsMinor(s[i + 1..j]) && IsDigits(s[j + 1..])
  }

  /** The literal `-rc` starts at position `k` of `s`. */
  predicate RcMarkerAt(s: string, k: int) {
    0 <= k && k + 3 <= |s| && s[k] == '-' && s[k + 1] == 'r' && s[k + 2] == 'c'
  }

  /** The whole of `s` matches `[2-9][0-9]\.[1-9][0-2]?\.\d+-rc[1-9]\d?`. */
  ghost predicate RcPattern(s: string) {
    exists k :: RcMarkerAt(s, k) && ReleasePattern(s[..k]) && IsRcNumber(s[k + 3..])
  }

  /** The whole of `s` matches `0\.0\.0-dev`. */
  predicate DevPattern(s: string) {
    s == DevVersion
  }

  /** `s` fully matches one of `DEFAULT_IMAGE_VERSION_FORMATS`. */
  ghost predicate MatchesImageVersionFormat(s: string) {
    ReleasePattern(s) || RcPattern(s) || DevPattern(s)
  }

  /**
   Recognises the release pattern by position: the major is two characters, so the
   first dot is at 2 and the second at 4 or 5, depending on the minor's length.
   */
  predicate ScanRelease(s: string) {
    && |s| >= 6
    && IsMajor(s[..2])
    && s[2] == '.'
    && '1' <= s[3] <= '9'
    && if s[4] == '.' then IsDigits(s[5..])
       else '0' <= s[4] <= '2' && s[5] == '.' && IsDigits(s[6..])
  }

  /** Recognises the release-candidate pattern: `-rc` and one or two digits end the string. */
  predicate ScanRc(s: string) {
    || (|s| >= 4 && RcMarkerAt(s, |s| - 4) && IsRcNumber(s[|s| - 1..]) && ScanRelease(s[..|s| - 4]))
    || (|s| >= 5 && RcMarkerAt(s, |s| - 5) && IsRcNumber(s[|s| - 2..]) && ScanRelease(s[..|s| - 5]))
  }

  /**
   `check_image_version_format`: the input unchanged when it fully matches one of the
   three formats, otherwise the `ValueError` Python raises.
   */
  function CheckImageVersionFormat(imageVersion: string): (r: Result<string>)
    ensures r.Success? <==> MatchesImageVersionFormat(imageVersion)
    ensures r.Success? ==> r.value == imageVersion
    ensures r.Failure? ==> r.error == ValueError("Invalid image version: " + imageVersion)
  {
    ScanReleaseCorrect(imageVersion);
    ScanRcCorrect(imageVersion);
    if ScanRelease(imageVersion) || ScanRc(imageVersion) || imageVersion == DevVersion then
      Success(imageVersion)
    else
      Failure(ValueError("Invalid image version: " + imageVersion))
  }

  /** `check_architecture_input`: the input unchanged when it is whitelisted. */
  function CheckArchitectureInput(architecture: string): (r: Result<string>)
    ensures r.Success? <==> architecture == "linux/amd64" || architecture == "linux/arm64"
    ensures r.Success? ==> r.value == architecture
    ensures r.Failure? ==> r.error == ValueError(
      "Architecture " + architecture + " not supported. Supported: ['linux/amd64', 'linux/arm64']")
  {
    if architecture in SupportedArchitectures then
      Success(architecture)
    else
      Failure(ValueError(
        "Architecture " + architecture + " not supported. Supported: ['linux/amd64', 'linux/arm64']"))
  }

  // ---------------------------------------------------------------------
  // The scanners recognise exactly the regular languages
  // ---------------------------------------------------------------------

  lemma ScanReleaseCorrect(s: string)
    ensures ScanRelease(s) <==> ReleasePattern(s)
  {
    if ScanRelease(s) {
      var j := if s[4] == '.' then 4 else 5;
      assert s[..2] == s[..2];
      assert 0 <= 2 < j < |s| && s[2] == '.' && s[j] == '.' &&
        IsMajor(s[..2]) && IsMinor(s[3..j]) && IsDigits(s[j + 1..]);
    }
    if ReleasePattern(s) {
      var i, j :| 0 <= i < j < |s| && s[i] == '.' && s[j] == '.' &&
        IsMajor(s[..i]) && IsMinor(s[i + 1..j]) && IsDigits(s[j + 1..]);
      assert i == 2;
      assert s[3] == s[i + 1..j][0];
      if j == 4 {
        assert ScanRelease(s);
      } else {
        assert j == 5;
        assert s[4] == s[i + 1..j][1];
        assert ScanRelease(s);
      }
    }
  }

  lemma ScanRcCorrect(s: string)
    ensures ScanRc(s) <==> RcPattern(s)
  {
    if ScanRc(s) {
      var k := if |s| >= 4 && RcMarkerAt(s, |s| - 4) && IsRcNumber(s[|s| - 1..]) && ScanRelease(s[..|s| - 4])
        then |s| - 4 else |s| - 5;
      ScanReleaseCorrect(s[..k]);
      assert RcMarkerAt(s, k) && ReleasePattern(s[..k]) && IsRcNumber(s[k + 3..]);
    }
    if RcPattern(s) {
      var k :| RcMarkerAt(s, k) && ReleasePattern(s[..k]) && IsRcNumber(s[k + 3..]);
      ScanReleaseCorrect(s[..k]);
      assert k == |s| - 4 || k == |s| - 5;
    }
  }

  // ---------------------------------------------------------------------
  // What the accepted versions look like
  // ---------------------------------------------------------------------

  /**
   Every accepted version other than the development sentinel starts with a major in
   20..99 followed by a dot and a minor without a leading zero, and ends with a digit:
   nothing may precede or follow the matched text.
   */
  lemma AcceptedVersionShape(s: string)
    requires CheckImageVersionFormat(s).Success?
    requires s != DevVersion
    ensures |s| >= 6
    ensures '2' <= s[0] <= '9' && IsDigit(s[1]) && s[2] == '.'
    ensures '1' <= s[3] <= '9'
    ensures IsDigit(s[|s| - 1])
  {
    ScanReleaseCorrect(s);
    ScanRcCorrect(s);
    if !ScanRelease(s) {
      var k := if |s| >= 4 && RcMarkerAt(s, |s| - 4) && IsRcNumber(s[|s| - 1..]) && ScanRelease(s[..|s| - 4])
        then |s| - 4 else |s| - 5;
      var r := s[..k];
      assert ScanRelease(r);
      assert r[..2] == s[..2];
      assert s[|s| - 1] == s[k + 3..][|s| - k - 4];
    } else {
      assert s[|s| - 1] == (if s[4] == '.' then s[5..] else s[6..])[|s| - 1 - (if s[4] == '.' then 5 else 6)];
    }
  }

  /**
   The development sentinel is accepted only as the exact string: anything appended to
   `0.0.0-dev` is rejected.
   */
  lemma DevSuffixRejected(suffix: string)
    requires |suffix| > 0
    ensures CheckImageVersionFormat(DevVersion + suffix).Failure?
  {
    var s := DevVersion + suffix;
    if CheckImageVersionFormat(s).Success? {
      AcceptedVersionShape(s);
    }
  }

  /** The examples `check_image_version_format` documents. */
  lemma DocumentedAccepted()
    ensures CheckImageVersionFormat("23.4.0").Success?
    ensures CheckImageVersionFormat("23.4.0-rc1").Success?
    ensures CheckImageVersionFormat("0.0.0-dev").Success?
  {
    var a, b := "23.4.0", "23.4.0-rc1";
    assert ScanRelease(a) by { assert a[..2] == "23" && a[5..] == "0"; }
    assert ScanRelease(b[..6]) by { assert b[..6] == a; }
    assert IsRcNumber(b[9..]) by { assert b[9..] == "1"; }
    assert RcMarkerAt(b, 6);
  }

  lemma DocumentedRejected()
    ensures CheckImageVersionFormat("23.04.0").Failure?
    ensures CheckImageVersionFormat("23.4.0.prerelease").Failure?
  {
    var p, q := "23.04.0", "23.4.0.prerelease";
    assert !ScanRelease(p) by { assert p[3] == '0'; }
    assert !RcMarkerAt(p, 3) && !RcMarkerAt(p, 2);
    assert !ScanRelease(q) by { assert q[5..][1] == '.'; }
    assert !RcMarkerAt(q, 13) && !RcMarkerAt(q, 12);
  }

  /**
   The minor field is `[1-9][0-2]?`: 20, 21 and 92 pass although they are not months;
   release candidates run up to rc99.
   */
  lemma MinorQuirksAccepted()
    ensures CheckImageVersionFormat("23.20.1").Success?
    ensures CheckImageVersionFormat("23.92.0").Success?
    ensures CheckImageVersionFormat("23.4.0-rc99").Success?
  {
    var a, b, c := "23.20.1", "23.92.0", "23.4.0-rc99";
    assert ScanRelease(a) by { assert a[..2] == "23" && a[6..] == "1"; }
    assert ScanRelease(b) by { assert b[..2] == "23" && b[6..] == "0"; }
    assert ScanRelease(c[..6]) by { assert c[..6][..2] == "23" && c[..6][5..] == "0"; }
    assert IsRcNumber(c[9..]) by { assert c[9..] == "99"; }
    assert RcMarkerAt(c, 6);
  }

  /** A minor of 13, a major below 20 and a release candidate 0 are rejected. */
  lemma OutOfRangeRejected()
    ensures CheckImageVersionFormat("23.13.0").Failure?
    ensures CheckImageVersionFormat("19.4.0").Failure?
    ensures CheckImageVersionFormat("23.4.0-rc0").Failure?
  {
    var a, b, c := "23.13.0", "19.4.0", "23.4.0-rc0";
    assert !ScanRelease(a) by { assert a[4] == '3'; }
    assert !RcMarkerAt(a, 3) && !RcMarkerAt(a, 2);
    assert !ScanRelease(b) by { assert b[..2][0] == '1'; }
    assert !RcMarkerAt(b, 2) && !RcMarkerAt(b, 1);
    assert !ScanRelease(c) by { assert c[5..][1] == '-'; }
    assert !IsRcNumber(c[9..]) by { assert c[9..][0] == '0'; }
    assert !RcMarkerAt(c, 5);
  }

  /** There is no generic `-suffix`: only `-rc` and one or two digits, or the exact sentinel. */
  lemma NoGenericSuffix()
    ensures CheckImageVersionFormat("0.0.0-dev-foo").Failure?
    ensures CheckImageVersionFormat("23.4.0-rc100").Failure?
    ensures CheckImageVersionFormat("23.4.0-beta").Failure?
  {
    DevSuffixRejected("-foo");
    var p, q := "23.4.0-rc100", "23.4.0-beta";
    assert !ScanRelease(p) by { assert p[5..][1] == '-'; }
    assert !RcMarkerAt(p, 8) && !RcMarkerAt(p, 7);
    assert !ScanRelease(q) by { assert q[5..][1] == '-'; }
    assert !RcMarkerAt(q, 7) && !RcMarkerAt(q, 6);
  }
}

=== FILE: bake.dfy ===
/**
 The bake-file compiler of `bake.py`: from a catalog of products, each with an ordered
 list of version maps, to a `docker buildx bake` file with one target per product
 version, one group per product and a `default` group.

 A version map is a Python dict from strings to strings. It always has `product` (the
 product version), and it may name other catalog products with the version of each that
 this one is built on. The volatile inputs (build time and git revision) and the
 command-line options are parameters.
 */
module Bake {
  import opened Results
  import opened Dicts
  import opened Text
  import opened CacheRefs
  import opened Merge

  /** The command-line options the compiler reads (`args.*`). */
  datatype Options = Options(
    registry: string,
    organization: string,
    imageVersion: string,
    architecture: string,
    cache: bool)

  /**
   The volatile inputs: an RFC 3339 creation time and the git revision. One stamp serves
   every target of a run; Python reads the clock again for each target.
   */
  datatype Stamp = Stamp(created: string, revision: string)

  type VersionMap = Dict<string>

  /** A catalog product; a product without `versions` counts as having none. */
  datatype Product = Product(name: string, versions: Option<seq<VersionMap>>)

  /** The loaded configuration: the products and, if configured, the cache backends. */
  datatype Catalog = Catalog(products: seq<Product>, cache: Option<seq<Backend>>)

  /** One bake target; `cacheTo` and `cacheFrom` are absent unless caching is on. */
  datatype Target = Target(
    annotations: seq<string>,
    labels: Dict<string>,
    dockerfile: string,
    tags: seq<string>,
    args: Dict<string>,
    platforms: seq<string>,
    context: string,
    contexts: Dict<string>,
    cacheTo: Option<seq<string>>,
    cacheFrom: Option<seq<string>>)

  /** The bake file; a group `{"targets": [...]}` is represented by its member list. */
  datatype Bakefile = Bakefile(target: Dict<Target>, group: Dict<seq<string>>)

  /** What every target of one run shares. */
  datatype Env = Env(opts: Options, stamp: Stamp, productNames: seq<string>, cache: seq<Backend>)

  // ---------------------------------------------------------------------
  // Build arguments
  // ---------------------------------------------------------------------

  /** The version map's pairs with their keys upper-cased, in order. */
  function UpperKeys(d: Dict<string>): (u: Dict<string>)
    ensures |u| == |d|
    ensures forall i :: 0 <= i < |d| ==> u[i] == (Upper(d[i].0), d[i].1)
  {
    seq(|d|, i requires 0 <= i < |d| => (Upper(d[i].0), d[i].1))
  }

  /**
   `build_image_args`: every key of the version map upper-cased with its value, in order,
   then `RELEASE` set to the release version, overriding any key that upper-cases to it.
   */
  function BuildImageArgs(confArgs: Dict<string>, release: string): (r: Dict<string>)
    ensures Valid(r)
    ensures Get(r, "RELEASE") == Some(release)
    ensures forall k :: k != "RELEASE" ==> Get(r, k) == Get(UpperKeys(confArgs), k)
    ensures Keys(r) == AppendNew(Dedup(Keys(UpperKeys(confArgs))), ["RELEASE"])
  {
    var upper := PutAll([], UpperKeys(confArgs));
    BuiltIsValid(UpperKeys(confArgs));
    Put(upper, "RELEASE", release)
  }

  /** Every key of the build arguments is in upper case. */
  lemma BuildImageArgsUpper(confArgs: Dict<string>, release: string)
    ensures forall k :: k in Keys(BuildImageArgs(confArgs, release)) ==> Upper(k) == k
  {
    var ks := Keys(UpperKeys(confArgs));
    AppendNewMembers(Dedup(ks), ["RELEASE"]);
    DedupMembers(ks);
    forall k | k in ks ensures Upper(k) == k {
      var i :| 0 <= i < |ks| && ks[i] == k;
      UpperIdempotent(confArgs[i].0);
    }
    assert Upper("RELEASE") == "RELEASE";
  }

  /**
   A key of the version map that no later key collides with after upper-casing, and that
   does not upper-case to `RELEASE`, is passed on upper-cased with its value unchanged.
   */
  lemma BuildImageArgsKeepsValue(confArgs: Dict<string>, release: string, i: int)
    requires 0 <= i < |confArgs| && Upper(confArgs[i].0) != "RELEASE"
    requires forall j :: i < j < |confArgs| ==> Upper(confArgs[j].0) != Upper(confArgs[i].0)
    ensures Get(BuildImageArgs(confArgs, release), Upper(confArgs[i].0)) == Some(confArgs[i].1)
  {
    GetLastPair(UpperKeys(confArgs), i);
  }

  // ---------------------------------------------------------------------
  // Tags and target names
  // ---------------------------------------------------------------------

  /** `build_image_tags`: the one tag `<image>:<product version>-stackable<image version>`. */
  function BuildImageTags(imageName: string, imageVersion: string, productVersion: string): (tags: seq<string>)
    ensures |tags| == 1
    ensures StartsWith(tags[0], imageName + ":" + productVersion)
    ensures EndsWith(tags[0], "-stackable" + imageVersion)
    ensures |tags[0]| == |imageName| + 1 + |productVersion| + |"-stackable"| + |imageVersion|
  {
    var tag := imageName + ":" + productVersion + "-stackable" + imageVersion;
    assert tag[..|imageName + ":" + productVersion|] == imageName + ":" + productVersion;
    assert tag[|tag| - |"-stackable" + imageVersion|..] == "-stackable" + imageVersion;
    [tag]
  }

  /** The tag determines the product version, for a fixed image name and image version. */
  lemma BuildImageTagsInjective(imageName: string, imageVersion: string, v1: string, v2: string)
    requires BuildImageTags(imageName, imageVersion, v1) == BuildImageTags(imageName, imageVersion, v2)
    ensures v1 == v2
  {
    var t := BuildImageTags(imageName, imageVersion, v1)[0];
    var n := |imageName| + 1;
    assert |v1| == |v2|;
    assert v1 == t[n..n + |v1|];
    assert v2 == t[n..n + |v2|];
  }

  /**
   `bakefile_target_name_for_product_version`: the product name untouched, a `-`, then the
   version with every `.` replaced by `_`.
   */
  function TargetName(product: string, version: string): (n: string)
    ensures |n| == |product| + 1 + |version|
    ensures n[..|product|] == product && n[|product|] == '-'
    ensures forall i :: 0 <= i < |version| ==>
      n[|product| + 1 + i] == if version[i] == '.' then '_' else version[i]
  {
    var n := product + "-" + ReplaceChar(version, '.', '_');
    assert n[..|product|] == product;
    n
  }

  /** For one product, two versions give the same name exactly when they agree up to `.`/`_`. */
  lemma TargetNameSameProduct(product: string, v1: string, v2: string)
    ensures TargetName(product, v1) == TargetName(product, v2)
        <==> ReplaceChar(v1, '.', '_') == ReplaceChar(v2, '.', '_')
  {
    var n1, n2 := TargetName(product, v1), TargetName(product, v2);
    assert n1[|product| + 1..] == ReplaceChar(v1, '.', '_');
    assert n2[|product| + 1..] == ReplaceChar(v2, '.', '_');
  }

  /**
   Target names are unambiguous when no product name contains `-` and no version contains
   `_`: the name gives back both the product and the version.
   */
  lemma TargetNameInjective(p1: string, v1: string, p2: string, v2: string)
    requires '-' !in p1 && '-' !in p2 && '_' !in v1 && '_' !in v2
    requires TargetName(p1, v1) == TargetName(p2, v2)
    ensures p1 == p2 && v1 == v2
  {
    var n := TargetName(p1, v1);
    assert p1 == n[..|p1|] == p2;
    forall i | 0 <= i < |v1| ensures v1[i] == v2[i] {
      assert n[|p1| + 1 + i] == (if v1[i] == '.' then '_' else v1[i]);
      assert n[|p1| + 1 + i] == (if v2[i] == '.' then '_' else v2[i]);
    }
  }

  /** Without those restrictions names collide: `a-b` at `1` and `a` at `b-1`, or `1.0` and `1_0`. */
  lemma TargetNameCollisions()
    ensures TargetName("a-b", "1") == TargetName("a", "b-1")
    ensures TargetName("p", "1.0") == TargetName("p", "1_0")
  {
    assert ReplaceChar("1", '.', '_') == "1";
    assert ReplaceChar("b-1", '.', '_') == "b-1";
    assert ReplaceChar("1.0", '.', '_') == "1_0";
    assert ReplaceChar("1_0", '.', '_') == "1_0";
  }

  // ---------------------------------------------------------------------
  // Dependency contexts
  // ---------------------------------------------------------------------

  /** The named context under which a dependency's image is provided. */
  function ContextLabel(name: string): string {
    "stackable/image/" + name
  }

  /** The version map's entries that name a catalog product, as context pairs, in order. */
  function DependencyPairs(vm: VersionMap, productNames: seq<string>): Dict<string>
    decreases |vm|
  {
    if |vm| == 0 then []
    else
      var init := DependencyPairs(vm[..|vm| - 1], productNames);
      var last := vm[|vm| - 1];
      if last.0 in productNames then init + [(ContextLabel(last.0), "target:" + TargetName(last.0, last.1))]
      else init
  }

  /** The `contexts` of a target, built by a dict comprehension over the version map. */
  function ContextsFor(vm: VersionMap, productNames: seq<string>): Dict<string> {
    PutAll([], DependencyPairs(vm, productNames))
  }

  /** Every context pair comes from a version-map entry that names a catalog product. */
  lemma {:induction false} DependencyPairsFrom(vm: VersionMap, productNames: seq<string>)
    ensures forall p :: p in DependencyPairs(vm, productNames) ==>
      exists i :: (0 <= i < |vm| && vm[i].0 in productNames &&
        p == (ContextLabel(vm[i].0), "target:" + TargetName(vm[i].0, vm[i].1)))
    decreases |vm|
  {
    if |vm| > 0 {
      var init := vm[..|vm| - 1];
      DependencyPairsFrom(init, productNames);
      forall p | p in DependencyPairs(init, productNames)
        ensures exists i :: (0 <= i < |vm| && vm[i].0 in productNames &&
          p == (ContextLabel(vm[i].0), "target:" + TargetName(vm[i].0, vm[i].1)))
      {
        var i :| 0 <= i < |init| && init[i].0 in productNames &&
          p == (ContextLabel(init[i].0), "target:" + TargetName(init[i].0, init[i].1));
        assert vm[i] == init[i];
      }
    }
  }

  /**
   `contexts` is a dict, and each of its entries maps `stackable/image/<k>` to
   `target:<target name of k at v>` for a version-map entry `k: v` whose key is a catalog
   product: keys that are not product names produce no entry.
   */
  lemma ContextsShape(vm: VersionMap, productNames: seq<string>)
    ensures Valid(ContextsFor(vm, productNames))
    ensures forall p :: p in ContextsFor(vm, productNames) ==>
      exists i :: (0 <= i < |vm| && vm[i].0 in productNames &&
        p == (ContextLabel(vm[i].0), "target:" + TargetName(vm[i].0, vm[i].1)))
  {
    BuiltIsValid(DependencyPairs(vm, productNames));
    DependencyPairsFrom(vm, productNames);
  }

  lemma ContextLabelInjective(a: string, b: string)
    ensures ContextLabel(a) == ContextLabel(b) <==> a == b
  {
    if ContextLabel(a) == ContextLabel(b) {
      assert a == ContextLabel(a)[16..];
    }
  }

  /**
   A catalog product `k` the version map names gets the context entry for the target of
   `k` at the version given; any other key gets none.
   */
  lemma ContextsLookup(vm: VersionMap, productNames: seq<string>, k: string)
    ensures Get(ContextsFor(vm, productNames), ContextLabel(k)) ==
      if k in productNames && Get(vm, k).Some? then Some("target:" + TargetName(k, Get(vm, k).value))
      else None
  {
    LookupDependencyPairs(vm, productNames, k);
  }

  lemma {:induction false} LookupDependencyPairs(vm: VersionMap, productNames: seq<string>, k: string)
    ensures Get(DependencyPairs(vm, productNames), ContextLabel(k)) ==
      if k in productNames && Get(vm, k).Some? then Some("target:" + TargetName(k, Get(vm, k).value))
      else None
    decreases |vm|
  {
    if |vm| > 0 {
      var init := vm[..|vm| - 1];
      var last := vm[|vm| - 1];
      LookupDependencyPairs(init, productNames, k);
      ContextLabelInjective(last.0, k);
      if last.0 in productNames {
        GetAppend(DependencyPairs(init, productNames),
          [(ContextLabel(last.0), "target:" + TargetName(last.0, last.1))], ContextLabel(k));
      }
    }
  }

  // ---------------------------------------------------------------------
  // One target per product version
  // ---------------------------------------------------------------------

  /** The image repository of a product: `<registry>/<organization>/<product>`. */
  function ImageName(opts: Options, product: string): string {
    opts.registry + "/" + opts.organization + "/" + product
  }

  /** The target built for `product` at product version `pv`, with version map `vm`. */
  function TargetFor(env: Env, product: string, vm: VersionMap, pv: string): Target {
    var o := env.opts;
    var name := TargetName(product, pv);
    var cacheRefs := if o.cache then Some(GenerateCacheLocation(env.cache, name, o.architecture)) else None;
    Target(
      annotations := [
        "org.opencontainers.image.created=" + env.stamp.created,
        "org.opencontainers.image.revision=" + env.stamp.revision],
      labels := [
        ("org.opencontainers.image.created", env.stamp.created),
        ("build-date", env.stamp.created),
        ("org.opencontainers.image.revision", env.stamp.revision)],
      dockerfile := product + "/Dockerfile",
      tags := BuildImageTags(ImageName(o, product), o.imageVersion, pv),
      args := BuildImageArgs(vm, o.imageVersion),
      platforms := [o.architecture],
      context := ".",
      contexts := ContextsFor(vm, env.productNames),
      cacheTo := cacheRefs,
      cacheFrom := cacheRefs)
  }

  /**
   What every target of a run looks like: one tag in the run's repository, ending in the
   image version; `RELEASE` set to the image version; the run's one platform; and the same
   cache references written to both `cache-to` and `cache-from`, present exactly when
   caching is on.
   */
  predicate TargetShape(env: Env, t: Target) {
    && |t.tags| == 1
    && StartsWith(t.tags[0], env.opts.registry + "/" + env.opts.organization + "/")
    && EndsWith(t.tags[0], "-stackable" + env.opts.imageVersion)
    && Get(t.args, "RELEASE") == Some(env.opts.imageVersion)
    && t.platforms == [env.opts.architecture]
    && t.context == "."
    && t.cacheTo == t.cacheFrom
    && (t.cacheTo.Some? <==> env.opts.cache)
  }

  /**
   The cache references of the target named `name`: the run's cache backends pointed at
   that name and the run's architecture, when caching is on.
   */
  function CacheRefsOf(env: Env, name: string): Option<seq<string>> {
    if env.opts.cache then Some(GenerateCacheLocation(env.cache, name, env.opts.architecture)) else None
  }

  /** Every target the compiler builds has the run's shape, and its cache refs are one per backend. */
  lemma TargetForShape(env: Env, product: string, vm: VersionMap, pv: string)
    ensures TargetShape(env, TargetFor(env, product, vm, pv))
    ensures TargetFor(env, product, vm, pv).tags ==
      [ImageName(env.opts, product) + ":" + pv + "-stackable" + env.opts.imageVersion]
    ensures env.opts.cache ==> |TargetFor(env, product, vm, pv).cacheTo.value| == |env.cache|
    ensures TargetFor(env, product, vm, pv).cacheFrom == CacheRefsOf(env, TargetName(product, pv))
  {
    var o := env.opts;
    var t := TargetFor(env, product, vm, pv).tags[0];
    var pre := o.registry + "/" + o.organization + "/";
    assert ImageName(o, product) == pre + product;
    assert t[..|pre|] == pre by {
      assert t[..|ImageName(o, product) + ":" + pv|][..|pre|] == pre;
    }
  }

  /**
   The build time and git revision only reach the annotations and labels: two runs that
   differ only in them build targets that agree on every other field.
   */
  lemma VolatileFieldsIsolated(env: Env, stamp: Stamp, product: string, vm: VersionMap, pv: string)
    ensures var a := TargetFor(env, product, vm, pv);
            var b := TargetFor(env.(stamp := stamp), product, vm, pv);
            a.(annotations := [], labels := []) == b.(annotations := [], labels := [])
  {
  }

  /**
   The target built from version map `vm` of `product`: its one tag names the product at
   the map's product version, its Dockerfile is the product's, its build arguments are
   the map's, its contexts point at the map's dependencies, and both its `cache-to` and
   its `cache-from` are the cache references of its own target name.
   */
  predicate Wired(env: Env, product: string, vm: VersionMap, t: Target) {
    && Get(vm, "product").Some?
    && t.tags == [ImageName(env.opts, product) + ":" + Get(vm, "product").value + "-stackable" + env.opts.imageVersion]
    && t.dockerfile == product + "/Dockerfile"
    && t.args == BuildImageArgs(vm, env.opts.imageVersion)
    && t.contexts == ContextsFor(vm, env.productNames)
    && t.cacheTo == t.cacheFrom == CacheRefsOf(env, TargetName(product, Get(vm, "product").value))
  }

  /**
   A wired target's contexts: `stackable/image/<k>` leads to the target of `k` at the
   version the map gives it, for each catalog product `k` the map names, and to nothing
   otherwise; its `RELEASE` argument is the image version and every other argument is
   the map's, keys upper-cased.
   */
  lemma WiredTarget(env: Env, product: string, vm: VersionMap, t: Target, k: string)
    requires Wired(env, product, vm, t)
    ensures Get(t.contexts, ContextLabel(k)) ==
      if k in env.productNames && Get(vm, k).Some? then Some("target:" + TargetName(k, Get(vm, k).value))
      else None
    ensures Get(t.args, "RELEASE") == Some(env.opts.imageVersion)
    ensures k != "RELEASE" ==> Get(t.args, k) == Get(UpperKeys(vm), k)
  {
    ContextsLookup(vm, env.productNames, k);
  }

  /**
   `bakefile_product_version_targets`: the one-entry dict naming the target of a version
   map, or the `KeyError` of a version map without `product`.
   */
  function VersionTarget(env: Env, product: string, vm: VersionMap): (r: Result<(string, Target)>)
    ensures r.Success? <==> Get(vm, "product").Some?
    ensures r.Failure? ==> r.error == KeyError("product")
    ensures r.Success? ==> r.value.0 == TargetName(product, Get(vm, "product").value)
    ensures r.Success? ==> TargetShape(env, r.value.1) && Wired(env, product, vm, r.value.1)
  {
    match Get(vm, "product")
    case None => Failure(KeyError("product"))
    case Some(pv) =>
      TargetForShape(env, product, vm, pv);
      Success((TargetName(product, pv), TargetFor(env, product, vm, pv)))
  }

  // ---------------------------------------------------------------------
  // The whole catalog
  // ---------------------------------------------------------------------

  predicate HasProduct(vm: VersionMap) {
    Get(vm, "product").Some?
  }

  predicate AllHaveProduct(vs: seq<VersionMap>) {
    forall i :: 0 <= i < |vs| ==> HasProduct(vs[i])
  }

  /** Every version map of every product has `product`: the bake file can be built. */
  predicate Buildable(products: seq<Product>) {
    forall i :: 0 <= i < |products| ==> AllHaveProduct(products[i].versions.GetOr([]))
  }

  /** The target names of a product's versions, in version order, duplicates kept. */
  function TargetNames(product: string, vs: seq<VersionMap>): (ns: seq<string>)
    requires AllHaveProduct(vs)
    ensures |ns| == |vs|
    ensures forall i :: 0 <= i < |vs| ==> ns[i] == TargetName(product, Get(vs[i], "product").value)
  {
    seq(|vs|, i requires 0 <= i < |vs| => TargetName(product, Get(vs[i], "product").value))
  }

  /**
   `bakefile_product_version_targets` for each of a product's version maps, in order: a
   version map without `product` gives `KeyError('product')`, any other one its target
   under its target name.
   */
  function VersionResults(env: Env, product: string, vs: seq<VersionMap>): (rs: seq<Result<(string, Target)>>)
    ensures |rs| == |vs|
    ensures forall i :: 0 <= i < |vs| ==> (rs[i].Success? <==> HasProduct(vs[i]))
    ensures forall i :: 0 <= i < |vs| && rs[i].Failure? ==> rs[i].error == KeyError("product")
    ensures forall i :: 0 <= i < |vs| && HasProduct(vs[i]) ==>
      rs[i].Success? && rs[i].value.0 == TargetName(product, Get(vs[i], "product").value) &&
      TargetShape(env, rs[i].value.1) && Wired(env, product, vs[i], rs[i].value.1)
    decreases |vs|
  {
    if |vs| == 0 then []
    else [VersionTarget(env, product, vs[0])] + VersionResults(env, product, vs[1..])
  }

  /** The (target name, target) pairs of a product's versions, in version order. */
  function VersionEntries(env: Env, product: string, vs: seq<VersionMap>): (es: Dict<Target>)
    requires AllHaveProduct(vs)
    ensures |es| == |vs|
    ensures Keys(es) == TargetNames(product, vs)
    ensures forall i :: 0 <= i < |vs| ==> TargetShape(env, es[i].1)
  {
    Values(VersionResults(env, product, vs))
  }

  /**
   The inner loop of `generate_bakefile` for one product: its version targets merged in
   version order. It fails with `KeyError('product')` when a version map lacks `product`;
   otherwise its keys are the product's target names, duplicates collapsed to first place.
   */
  function ProductTargets(env: Env, product: string, vs: seq<VersionMap>): (r: Result<Dict<Target>>)
    ensures r.Success? <==> AllHaveProduct(vs)
    ensures r.Failure? ==> r.error == KeyError("product")
    ensures r.Success? ==> Keys(r.value) == Dedup(TargetNames(product, vs))
    ensures r.Success? ==> r.value == PutAll([], VersionEntries(env, product, vs))
  {
    var rs := VersionResults(env, product, vs);
    assert AllSucceed(rs) <==> AllHaveProduct(vs);
    var r := MergeInto([], rs);
    if r.Success? then
      assert Keys(r.value) == Dedup(TargetNames(product, vs)) by {
        var es := VersionEntries(env, product, vs);
        assert r.value == PutAll([], es);
        assert Keys<Target>([]) == [];
        assert Keys(es) == TargetNames(product, vs);
      }
      r
    else
      r
  }

  /**
   A product's merged targets: a later version map with the same target name overwrites
   the earlier target, and every target has the run's shape.
   */
  lemma ProductTargetsContents(env: Env, product: string, vs: seq<VersionMap>)
    requires AllHaveProduct(vs)
    ensures Valid(ProductTargets(env, product, vs).value)
    ensures forall k :: Get(ProductTargets(env, product, vs).value, k) == Get(VersionEntries(env, product, vs), k)
    ensures forall p :: p in ProductTargets(env, product, vs).value ==> TargetShape(env, p.1)
  {
    var es := VersionEntries(env, product, vs);
    assert Valid<Target>([]);
    forall p | p in ProductTargets(env, product, vs).value ensures TargetShape(env, p.1) {
      assert p in es;
      var i :| 0 <= i < |es| && es[i] == p;
    }
  }

  /** The product names in catalog order, duplicates kept. */
  function ProductNames(products: seq<Product>): (ns: seq<string>)
    ensures |ns| == |products|
    ensures forall i :: 0 <= i < |products| ==> ns[i] == products[i].name
  {
    seq(|products|, i requires 0 <= i < |products| => products[i].name)
  }

  /** The inner loop for every product, in catalog order. */
  function ProductResults(env: Env, products: seq<Product>): (rs: seq<Result<Dict<Target>>>)
    ensures |rs| == |products|
    ensures forall i :: 0 <= i < |products| ==>
      rs[i] == ProductTargets(env, products[i].name, products[i].versions.GetOr([]))
  {
    seq(|products|, i requires 0 <= i < |products| =>
      ProductTargets(env, products[i].name, products[i].versions.GetOr([])))
  }

  /** The environment `generate_bakefile` builds every target in, with one creation time for all. */
  function RunEnv(opts: Options, stamp: Stamp, catalog: Catalog): Env {
    Env(opts, stamp, ProductNames(catalog.products), catalog.cache.GetOr([]))
  }

  /** All (target name, target) pairs of the catalog, product by product, version by version. */
  function AllEntries(env: Env, products: seq<Product>): Dict<Target>
    requires Buildable(products)
  {
    Flatten(seq(|products|, i requires 0 <= i < |products| =>
      VersionEntries(env, products[i].name, products[i].versions.GetOr([]))))
  }

  /** All target names of the catalog, in the order they are generated, duplicates kept. */
  function AllTargetNames(products: seq<Product>): seq<string>
    requires Buildable(products)
  {
    Concat(seq(|products|, i requires 0 <= i < |products| =>
      TargetNames(products[i].name, products[i].versions.GetOr([]))))
  }

  /** Each product's group: its name and its target names, duplicates collapsed to first place. */
  function GroupEntries(products: seq<Product>): (gs: Dict<seq<string>>)
    requires Buildable(products)
    ensures |gs| == |products|
    ensures forall i :: 0 <= i < |products| ==>
      gs[i] == (products[i].name, Dedup(TargetNames(products[i].name, products[i].versions.GetOr([]))))
  {
    seq(|products|, i requires 0 <= i < |products| =>
      (products[i].name, Dedup(TargetNames(products[i].name, products[i].versions.GetOr([])))))
  }

  /**
   `generate_bakefile`. It fails with `KeyError('product')` exactly when some version map
   lacks `product`. Otherwise:
   - the targets are every product's targets merged in catalog order;
   - each product's group is assigned in catalog order, so a repeated product name
     reassigns its group in place;
   - `default` lists the group names present before it was assigned: the distinct product
     names in catalog order.
   */
  function GenerateBakefile(opts: Options, stamp: Stamp, catalog: Catalog): (r: Result<Bakefile>)
    ensures r.Success? <==> Buildable(catalog.products)
    ensures r.Failure? ==> r.error == KeyError("product")
    ensures r.Success? ==>
      r.value.target == PutAll([], Flatten(Values(ProductResults(RunEnv(opts, stamp, catalog), catalog.products))))
    ensures r.Success? ==> r.value.group == DefaultGroups(catalog.products)
  {
    var env := RunEnv(opts, stamp, catalog);
    var products := catalog.products;
    var c := CollectInto([], [], ProductNames(products), ProductResults(env, products));
    Collected(env, products);
    if c.Failure? then
      Failure(c.error)
    else
      var groups := c.value.1;
      Success(Bakefile(c.value.0, Put(groups, "default", Keys(groups))))
  }

  /** The groups of a buildable catalog: each product's group, then `default` listing the product names. */
  function DefaultGroups(products: seq<Product>): Dict<seq<string>>
    requires Buildable(products)
  {
    Put(PutAll([], GroupEntries(products)), "default", Dedup(ProductNames(products)))
  }

  /** The loop over products: what it collects, and when it fails. */
  lemma Collected(env: Env, products: seq<Product>)
    ensures var c := CollectInto([], [], ProductNames(products), ProductResults(env, products));
      && (c.Success? <==> Buildable(products))
      && (c.Failure? ==> c.error == KeyError("product"))
      && (c.Success? ==> c.value.0 == PutAll([], Flatten(Values(ProductResults(env, products)))))
      && (c.Success? ==> Put(c.value.1, "default", Keys(c.value.1)) == DefaultGroups(products))
  {
    ProductResultsOutcome(env, products);
    if Buildable(products) {
      ProductGroups(env, products);
    }
  }

  /** Every product's targets are computed exactly when every version map has `product`. */
  lemma ProductResultsOutcome(env: Env, products: seq<Product>)
    ensures AllSucceed(ProductResults(env, products)) <==> Buildable(products)
    ensures !AllSucceed(ProductResults(env, products)) ==> FirstError(ProductResults(env, products)) == KeyError("product")
  {
    var rs := ProductResults(env, products);
    forall i | 0 <= i < |rs| ensures rs[i].Success? <==> AllHaveProduct(products[i].versions.GetOr([])) {
    }
    if !AllSucceed(rs) {
      var i :| 0 <= i < |rs| && rs[i].Failure? && rs[i].error == FirstError(rs);
    }
  }

  /** The group entries recorded by the loop: each product's name and its target names. */
  lemma ProductGroups(env: Env, products: seq<Product>)
    requires Buildable(products)
    ensures AllSucceed(ProductResults(env, products))
    ensures Named(ProductNames(products), Values(ProductResults(env, products))) == GroupEntries(products)
    ensures Keys(GroupEntries(products)) == ProductNames(products)
    ensures Keys(PutAll([], GroupEntries(products))) == Dedup(ProductNames(products))
  {
    ProductResultsOutcome(env, products);
  }

  /**
   The bake file's targets, in key order, are the distinct target names of the catalog in
   generation order: a repeated name keeps the place of its first occurrence.
   */
  lemma BakefileTargetOrder(opts: Options, stamp: Stamp, catalog: Catalog)
    requires Buildable(catalog.products)
    ensures Keys(GenerateBakefile(opts, stamp, catalog).value.target) == Dedup(AllTargetNames(catalog.products))
  {
    var env := RunEnv(opts, stamp, catalog);
    var products := catalog.products;
    var rs := ProductResults(env, products);
    assert AllSucceed(rs);
    var ds := Values(rs);
    var nss := seq(|products|, i requires 0 <= i < |products| =>
      TargetNames(products[i].name, products[i].versions.GetOr([])));
    AppendNewFlatten([], ds, nss);
    assert Keys<Target>([]) == [];
  }

  /**
   Looking a name up in the bake file's targets finds the target of the LAST product
   version that has that name: later duplicates overwrite earlier ones.
   */
  lemma BakefileTargetLookup(opts: Options, stamp: Stamp, catalog: Catalog, k: string)
    requires Buildable(catalog.products)
    ensures Get(GenerateBakefile(opts, stamp, catalog).value.target, k)
         == Get(AllEntries(RunEnv(opts, stamp, catalog), catalog.products), k)
  {
    var env := RunEnv(opts, stamp, catalog);
    var products := catalog.products;
    var rs := ProductResults(env, products);
    assert AllSucceed(rs);
    var ds := Values(rs);
    var es := seq(|products|, i requires 0 <= i < |products| =>
      VersionEntries(env, products[i].name, products[i].versions.GetOr([])));
    forall i | 0 <= i < |ds| ensures Get(ds[i], k) == Get(es[i], k) {
      ProductTargetsContents(env, products[i].name, products[i].versions.GetOr([]));
    }
    GetFlatten(ds, es, k);
    assert Valid<Target>([]);
  }

  /** Every target in the bake file has the run's shape. */
  lemma BakefileTargetShapes(opts: Options, stamp: Stamp, catalog: Catalog)
    requires Buildable(catalog.products)
    ensures forall p :: p in GenerateBakefile(opts, stamp, catalog).value.target ==>
      TargetShape(RunEnv(opts, stamp, catalog), p.1)
  {
    var env := RunEnv(opts, stamp, catalog);
    var products := catalog.products;
    var rs := ProductResults(env, products);
    assert AllSucceed(rs);
    var ds := Values(rs);
    forall p | p in GenerateBakefile(opts, stamp, catalog).value.target
      ensures TargetShape(env, p.1)
    {
      InFlatten(ds, p);
      var i :| 0 <= i < |ds| && p in ds[i];
      ProductTargetsContents(env, products[i].name, products[i].versions.GetOr([]));
    }
  }

  /** `p` is the entry the compiler builds for one of the version maps `vs` of `product`. */
  predicate FromVersion(env: Env, product: string, vs: seq<VersionMap>, p: (string, Target)) {
    exists j :: 0 <= j < |vs| && HasProduct(vs[j]) &&
      p.0 == TargetName(product, Get(vs[j], "product").value) && Wired(env, product, vs[j], p.1)
  }

  /** `p` is the entry the compiler builds for some version map of some product. */
  predicate FromCatalog(env: Env, products: seq<Product>, p: (string, Target)) {
    exists i :: 0 <= i < |products| && FromVersion(env, products[i].name, products[i].versions.GetOr([]), p)
  }

  /** Every entry of a product's merged targets comes from one of its version maps. */
  lemma ProductTargetsWired(env: Env, product: string, vs: seq<VersionMap>, p: (string, Target))
    requires AllHaveProduct(vs) && p in ProductTargets(env, product, vs).value
    ensures FromVersion(env, product, vs, p)
  {
    var es := VersionEntries(env, product, vs);
    assert p in PutAll([], es);
    var j := Position(es, p);
    EntryWired(env, product, vs, j);
  }

  /** The `j`-th version entry is built from the `j`-th version map. */
  lemma EntryWired(env: Env, product: string, vs: seq<VersionMap>, j: int)
    requires AllHaveProduct(vs) && 0 <= j < |vs|
    ensures FromVersion(env, product, vs, VersionEntries(env, product, vs)[j])
  {
    var es := VersionEntries(env, product, vs);
    var rs := VersionResults(env, product, vs);
    assert es[j] == rs[j].value;
    assert HasProduct(vs[j]) && Wired(env, product, vs[j], es[j].1);
  }

  /**
   Every target in the bake file is the target of some product's version map, under that
   version's target name: its tag, Dockerfile, build arguments and contexts are that map's
   (`WiredTarget` spells out its contexts and arguments).
   */
  lemma BakefileTargetsWired(opts: Options, stamp: Stamp, catalog: Catalog)
    requires Buildable(catalog.products)
    ensures forall p :: p in GenerateBakefile(opts, stamp, catalog).value.target ==>
      FromCatalog(RunEnv(opts, stamp, catalog), catalog.products, p)
  {
    var env := RunEnv(opts, stamp, catalog);
    var products := catalog.products;
    forall p | p in GenerateBakefile(opts, stamp, catalog).value.target
      ensures FromCatalog(env, products, p)
    {
      var i := ProductOf(opts, stamp, catalog, p);
      ProductTargetsWired(env, products[i].name, products[i].versions.GetOr([]), p);
    }
  }

  /** The product whose merged targets hold a given target of the bake file. */
  lemma ProductOf(opts: Options, stamp: Stamp, catalog: Catalog, p: (string, Target)) returns (i: int)
    requires Buildable(catalog.products)
    requires p in GenerateBakefile(opts, stamp, catalog).value.target
    ensures 0 <= i < |catalog.products|
    ensures p in ProductTargets(RunEnv(opts, stamp, catalog), catalog.products[i].name,
      catalog.products[i].versions.GetOr([])).value
  {
    var rs := ProductResults(RunEnv(opts, stamp, catalog), catalog.products);
    assert AllSucceed(rs);
    var ds := Values(rs);
    InFlatten(ds, p);
    i :| 0 <= i < |ds| && p in ds[i];
  }

  /**
   The groups: `default` lists the distinct product names in catalog order and comes
   last (or keeps the place of a product named `default`); any other group is the group
   of the last product with that name.
   */
  lemma BakefileGroups(opts: Options, stamp: Stamp, catalog: Catalog)
    requires Buildable(catalog.products)
    ensures var g := GenerateBakefile(opts, stamp, catalog).value.group;
      && Valid(g)
      && Get(g, "default") == Some(Dedup(ProductNames(catalog.products)))
      && Keys(g) == AppendNew(Dedup(ProductNames(catalog.products)), ["default"])
      && forall n :: n != "default" ==> Get(g, n) == Get(GroupEntries(catalog.products), n)
  {
    var ge := GroupEntries(catalog.products);
    assert Keys(ge) == ProductNames(catalog.products);
    assert Valid<seq<string>>([]);
    assert Keys<seq<string>>([]) == [];
  }

  /**
   A product's group lists its target names in version order, duplicates collapsed to
   first place, unless a later product has the same name or the product is named
   `default`.
   */
  lemma BakefileProductGroup(opts: Options, stamp: Stamp, catalog: Catalog, i: int)
    requires Buildable(catalog.products)
    requires 0 <= i < |catalog.products| && catalog.products[i].name != "default"
    requires forall j :: i < j < |catalog.products| ==> catalog.products[j].name != catalog.products[i].name
    ensures Get(GenerateBakefile(opts, stamp, catalog).value.group, catalog.products[i].name)
         == Some(Dedup(TargetNames(catalog.products[i].name, catalog.products[i].versions.GetOr([]))))
  {
    BakefileGroups(opts, stamp, catalog);
    GetLastPair(GroupEntries(catalog.products), i);
  }
}

=== FILE: cache.dfy ===
/**
 `generate_cache_location` of `bake.py`: one `k=v,k=v` string per cache backend.

 A backend is a dict of cache parameters. When it has a `ref_prefix` entry, the loop
 rebinds `arch` to itself with `/` replaced by `_`, sets `ref` to
 `<ref_prefix>:<target>-<arch>` and deletes `ref_prefix`. The caller's backends are
 deep-copied first; in this model every value is immutable, so the caller's list can
 never be changed.
 */
module CacheRefs {
  import opened Results
  import opened Dicts
  import opened Text

  type Backend = Dict<string>

  /** `f"{k}={v}"` for every entry, in dict order. */
  function Entries(backend: Backend): (es: seq<string>)
    ensures |es| == |backend|
  {
    seq(|backend|, i requires 0 <= i < |backend| => backend[i].0 + "=" + backend[i].1)
  }

  /** `",".join(...)` of the entries. */
  function Serialize(backend: Backend): string {
    Join(",", Entries(backend))
  }

  /**
   One pass of the loop body: the rewritten backend, and what `arch` is bound to for
   the following backends.
   */
  function Step(backend: Backend, target: string, arch: string): (Backend, string) {
    match Get(backend, "ref_prefix")
    case None => (backend, arch)
    case Some(prefix) =>
      var arch' := ReplaceChar(arch, '/', '_');
      (Remove(Put(backend, "ref", prefix + ":" + target + "-" + arch'), "ref_prefix"), arch')
  }

  /** The rewrite of a single backend, on its own. */
  function RewriteBackend(backend: Backend, target: string, arch: string): Backend {
    Step(backend, target, arch).0
  }

  /** The value `ref` gets: the prefix, the target name and the `/`-free architecture. */
  function RefValue(prefix: string, target: string, arch: string): string {
    prefix + ":" + target + "-" + ReplaceChar(arch, '/', '_')
  }

  /**
   A backend with `ref_prefix` loses that key and gains `ref` (in place when it already
   had one, at the end otherwise); the key order is otherwise kept.
   */
  lemma RewriteKeys(backend: Backend, target: string, arch: string)
    requires Valid(backend) && Get(backend, "ref_prefix").Some?
    ensures Valid(RewriteBackend(backend, target, arch))
    ensures Keys(RewriteBackend(backend, target, arch)) == Without(AppendNew(Keys(backend), ["ref"]), "ref_prefix")
  {
    var put := Put(backend, "ref", RefValue(Get(backend, "ref_prefix").value, target, arch));
    RemoveKeys(put, "ref_prefix");
    RemoveValid(put, "ref_prefix");
  }

  /**
   After the rewrite of a backend with `ref_prefix`, `ref` holds the prefix, the target
   name and the architecture with `/` replaced by `_`; `ref_prefix` is gone, and every
   other key keeps its value.
   */
  lemma RewriteValues(backend: Backend, target: string, arch: string, k: string)
    requires Valid(backend) && Get(backend, "ref_prefix").Some?
    ensures Get(RewriteBackend(backend, target, arch), k) ==
      if k == "ref" then Some(RefValue(Get(backend, "ref_prefix").value, target, arch))
      else if k == "ref_prefix" then None
      else Get(backend, k)
  {
    var put := Put(backend, "ref", RefValue(Get(backend, "ref_prefix").value, target, arch));
    RemoveGet(put, "ref_prefix", k);
  }

  /**
   `generate_cache_location(cache, target_name, arch)`, following the loop as written,
   `arch` rebinding included. The result has one string per backend, in backend order,
   and each is the serialised rewrite of that backend alone: since replacing `/` is
   idempotent, the rebinding of `arch` never changes a later backend's `ref`.
   */
  function GenerateCacheLocation(cache: seq<Backend>, target: string, arch: string): (r: seq<string>)
    ensures |r| == |cache|
    ensures forall i :: 0 <= i < |cache| ==> r[i] == Serialize(RewriteBackend(cache[i], target, arch))
    decreases |cache|
  {
    if |cache| == 0 then []
    else
      var step := Step(cache[0], target, arch);
      var rest := GenerateCacheLocation(cache[1..], target, step.1);
      assert forall i :: 0 <= i < |cache| - 1 ==>
        RewriteBackend(cache[1..][i], target, step.1) == RewriteBackend(cache[1..][i], target, arch) by {
        ReplaceCharIdempotent(arch, '/', '_');
      }
      [Serialize(step.0)] + rest
  }

  // ---------------------------------------------------------------------
  // Reading a cache reference back
  // ---------------------------------------------------------------------

  /** Splits one `k=v` entry at its first `=`. */
  function ParseEntry(entry: string): (string, string) {
    var parts := Split(entry, "=");
    (parts[0], Join("=", parts[1..]))
  }

  /** Reads a serialised backend back into a dict (the inverse of `Serialize`). */
  function Parse(s: string): Backend {
    if s == "" then []
    else
      var pieces := Split(s, ",");
      seq(|pieces|, i requires 0 <= i < |pieces| => ParseEntry(pieces[i]))
  }

  /** No `,` anywhere and no `=` in a key: the serialisation can be read back. */
  predicate Unambiguous(backend: Backend) {
    forall i :: 0 <= i < |backend| ==>
      ',' !in backend[i].0 && '=' !in backend[i].0 && ',' !in backend[i].1
  }

  /** A backend with an entry serialises to a non-empty string: every entry has its `=`. */
  lemma SerializeNonEmpty(backend: Backend)
    requires |backend| > 0
    ensures Serialize(backend) != ""
  {
    var es := Entries(backend);
    assert es[0] == backend[0].0 + "=" + backend[0].1;
    assert |es[0]| > 0;
    if |es| > 1 {
      assert Serialize(backend) == es[0] + "," + Join(",", es[1..]);
    }
  }

  /** Reading a serialised backend gives the backend back, order included. */
  lemma SerializeRoundTrip(backend: Backend)
    requires Unambiguous(backend)
    ensures Parse(Serialize(backend)) == backend
  {
    var es := Entries(backend);
    if |backend| == 0 {
      assert Serialize(backend) == "";
    } else {
      forall i | 0 <= i < |es| ensures ',' !in es[i] {
        assert es[i] == backend[i].0 + "=" + backend[i].1;
      }
      SplitJoin(",", es);
      SerializeNonEmpty(backend);
      forall i | 0 <= i < |es| ensures ParseEntry(es[i]) == backend[i] {
        SplitAtFirst(backend[i].0, "=", backend[i].1);
      }
    }
  }

  /**
   The usual shape: `ref_prefix` first and no `ref` yet. The result is the other entries
   in their order, followed by `ref`.
   */
  lemma RewriteLeadingPrefix(prefix: string, rest: Backend, target: string, arch: string)
    requires "ref" !in Keys(rest) && "ref_prefix" !in Keys(rest)
    ensures RewriteBackend([("ref_prefix", prefix)] + rest, target, arch)
         == rest + [("ref", RefValue(prefix, target, arch))]
  {
    var b := [("ref_prefix", prefix)] + rest;
    var v := RefValue(prefix, target, arch);
    assert Get(b, "ref_prefix") == Some(prefix) by {
      GetCons(("ref_prefix", prefix), rest, "ref_prefix");
      GetIsSomeIffKey(rest, "ref_prefix");
    }
    var put := Put(b, "ref", v);
    assert put == b + [("ref", v)] by {
      assert forall i :: 0 <= i < |b| ==> b[i].0 != "ref" by {
        forall i | 1 <= i < |b| ensures b[i].0 != "ref" {
          assert b[i].0 == Keys(rest)[i - 1];
        }
      }
    }
    assert Remove(put, "ref_prefix") == Remove(b, "ref_prefix") + [("ref", v)] by {
      assert put[..|put| - 1] == b;
    }
    assert Remove(b, "ref_prefix") == rest by {
      RemoveConcat([("ref_prefix", prefix)], rest, "ref_prefix");
      RemoveAbsent(rest, "ref_prefix");
      assert [("ref_prefix", prefix)][..0] == [];
    }
  }

  /**
   A registry backend with a prefix, for an `amd64` build: its one `cache-from` entry is
   `type=registry,ref=<prefix>:<target>-linux_amd64`.
   */
  lemma RegistryExample(prefix: string, target: string)
    ensures GenerateCacheLocation([[("ref_prefix", prefix), ("type", "registry")]], target, "linux/amd64")
         == ["type=registry,ref=" + prefix + ":" + target + "-linux_amd64"]
  {
    var rest: Backend := [("type", "registry")];
    var b := [("ref_prefix", prefix)] + rest;
    assert b == [("ref_prefix", prefix), ("type", "registry")];
    RewriteLeadingPrefix(prefix, rest, target, "linux/amd64");
    var v := RefValue(prefix, target, "linux/amd64");
    assert rest + [("ref", v)] == [("type", "registry"), ("ref", v)];
    var out := GenerateCacheLocation([b], target, "linux/amd64");
    assert out == [Serialize([("type", "registry"), ("ref", v)])];
    SerializePair("type", "registry", "ref", v);
    RegistryText(prefix, target, v);
  }

  /** The text of that entry, once the architecture has lost its `/`. */
  lemma RegistryText(prefix: string, target: string, v: string)
    requires v == RefValue(prefix, target, "linux/amd64")
    ensures "type" + "=" + "registry" + "," + "ref" + "=" + v == "type=registry,ref=" + prefix + ":" + target + "-linux_amd64"
  {
    AmdArch();
    var head := "type" + "=" + "registry" + "," + "ref" + "=";
    assert head == "type=registry,ref=";
    assert v == prefix + ":" + target + "-linux_amd64";
  }

  /** `linux/amd64` with `/` replaced by `_`. */
  lemma AmdArch()
    ensures ReplaceChar("linux/amd64", '/', '_') == "linux_amd64"
  {
  }

  /** Two entries are serialised as `k1=v1,k2=v2`. */
  lemma SerializePair(k1: string, v1: string, k2: string, v2: string)
    ensures Serialize([(k1, v1), (k2, v2)]) == k1 + "=" + v1 + "," + k2 + "=" + v2
  {
    var es := Entries([(k1, v1), (k2, v2)]);
    assert es[0] == k1 + "=" + v1 && es[1] == k2 + "=" + v2;
    assert es[1..] == [es[1]];
    assert Join(",", es) == es[0] + "," + Join(",", [es[1]]);
  }
}

=== FILE: command.dfy ===
/**
 `bake_command` of `bake.py`: the `docker buildx bake` invocation that reads the bake file
 from standard input and builds the selected targets. The bake file itself stands for the
 JSON text written to standard input.
 */
module Commands {
  import opened Results
  import opened Bake

  /** A process to run: its argument vector and, optionally, what to write to its standard input. */
  datatype Command = Command(args: seq<string>, stdin: Option<Bakefile>)

  /** What `bake` does with the targets: print the resolved file, push the images, or load them. */
  datatype Mode = Print | Push | Load

  /** `--print` for a dry run, whatever `--push` says; then `--push`; `--load` otherwise. */
  function ModeOf(dry: bool, push: bool): Mode {
    if dry then Print else if push then Push else Load
  }

  function ModeFlag(m: Mode): string {
    match m
    case Print => "--print"
    case Push => "--push"
    case Load => "--load"
  }

  const Prefix: seq<string> := ["docker", "buildx", "bake", "--file", "-"]

  /**
   `bake_command(args, targets, bakefile)`: `docker buildx bake --file -`, the targets in the
   order given, then the one mode flag; the bake file goes to standard input.
   */
  function BakeCommand(dry: bool, push: bool, targets: seq<string>, bakefile: Bakefile): (c: Command)
    ensures |c.args| == |Prefix| + |targets| + 1
    ensures c.args[..|Prefix|] == Prefix
    ensures c.args[|Prefix|..|c.args| - 1] == targets
    ensures c.args[|c.args| - 1] == ModeFlag(ModeOf(dry, push))
    ensures c.stdin == Some(bakefile)
  {
    var args := Prefix + targets + [ModeFlag(ModeOf(dry, push))];
    assert args[..|Prefix|] == Prefix;
    assert args[|Prefix|..|args| - 1] == targets;
    Command(args, Some(bakefile))
  }

  /** Reads a mode flag back. */
  function ParseMode(flag: string): Option<Mode> {
    if flag == "--print" then Some(Print)
    else if flag == "--push" then Some(Push)
    else if flag == "--load" then Some(Load)
    else None
  }

  /** Reads an argument vector back into its targets and mode, if it has the shape of a bake invocation. */
  function ParseBakeArgs(args: seq<string>): Option<(seq<string>, Mode)> {
    if |args| <= |Prefix| || args[..|Prefix|] != Prefix then None
    else
      match ParseMode(args[|args| - 1])
      case None => None
      case Some(m) => Some((args[|Prefix|..|args| - 1], m))
  }

  /** The command determines the targets and the mode it was built from. */
  lemma BakeCommandRoundTrip(dry: bool, push: bool, targets: seq<string>, bakefile: Bakefile)
    ensures ParseBakeArgs(BakeCommand(dry, push, targets, bakefile).args) == Some((targets, ModeOf(dry, push)))
  {
  }

  /** A dry run only prints: `--push` appears only if a target is itself called that. */
  lemma DryRunNeverPushes(push: bool, targets: seq<string>, bakefile: Bakefile)
    ensures BakeCommand(true, push, targets, bakefile).args[|Prefix| + |targets|] == "--print"
    ensures "--push" in BakeCommand(true, push, targets, bakefile).args ==> "--push" in targets
  {
    var args := BakeCommand(true, push, targets, bakefile).args;
    if "--push" in args {
      var i :| 0 <= i < |args| && args[i] == "--push";
      assert i >= |Prefix| && i < |args| - 1;
      assert args[|Prefix|..|args| - 1][i - |Prefix|] == args[i];
    }
  }
}

=== FILE: dicts.dfy ===
/**
 A Python `dict` as an association list in insertion order.

 Python dicts remember the order in which keys were first inserted: assigning to an
 existing key keeps its position, a new key goes to the end, and `del` drops the entry.
 That order is observable in everything the build-graph compiler emits (group member
 lists, the `k=v` order of cache references), so the model keeps it.

 `Get` reads a list of pairs the way `dict(pairs)[k]` would: the LAST pair with that key
 wins. On a `Valid` dict (distinct keys) that is simply the one entry for the key.
 */
module Dicts {
  import opened Results

  type Dict<V> = seq<(string, V)>

  /** The keys in order (`list(d.keys())`). */
  function Keys<V(!new)>(d: Dict<V>): (ks: seq<string>)
    ensures |ks| == |d|
    ensures forall i :: 0 <= i < |d| ==> ks[i] == d[i].0
  {
    seq(|d|, i requires 0 <= i < |d| => d[i].0)
  }

  /** Every key occurs once, as in any dict Python can build. */
  predicate Valid<V(!new)>(d: Dict<V>) {
    forall i, j :: 0 <= i < j < |d| ==> d[i].0 != d[j].0
  }

  predicate Distinct(xs: seq<string>) {
    forall i, j :: 0 <= i < j < |xs| ==> xs[i] != xs[j]
  }

  /** `dict(d).get(k)`: the value of the last pair whose key is `k`. */
  function Get<V(!new)>(d: Dict<V>, k: string): Option<V>
  {
    if |d| == 0 then None
    else if d[|d| - 1].0 == k then Some(d[|d| - 1].1)
    else Get(d[..|d| - 1], k)
  }

  /** Position of the first pair whose key is `k`, or `|d|` when there is none. */
  function IndexOfKey<V(!new)>(d: Dict<V>, k: string): (i: nat)
    ensures i <= |d|
    ensures i < |d| ==> d[i].0 == k
    ensures forall j :: 0 <= j < i ==> d[j].0 != k
  {
    if |d| == 0 then 0
    else if d[0].0 == k then 0
    else 1 + IndexOfKey(d[1..], k)
  }

  /**
   The key order after inserting the keys `ys` one by one into a dict whose keys are `xs`:
   a key already present keeps its place, a new one is appended.
   */
  function AppendNew(xs: seq<string>, ys: seq<string>): seq<string>
    decreases |ys|
  {
    if |ys| == 0 then xs
    else AppendNew(if ys[0] in xs then xs else xs + [ys[0]], ys[1..])
  }

  /** First occurrences in order (`list(dict.fromkeys(ys))`). */
  function Dedup(ys: seq<string>): seq<string>
  {
    AppendNew([], ys)
  }

  /** `d[k] = v`. */
  function Put<V(!new)>(d: Dict<V>, k: string, v: V): (r: Dict<V>)
    ensures Keys(r) == AppendNew(Keys(d), [k])
    ensures Valid(d) ==> Valid(r)
    ensures Valid(d) ==> forall k' :: Get(r, k') == if k' == k then Some(v) else Get(d, k')
    ensures forall p :: p in r ==> p in d || p == (k, v)
  {
    var i := IndexOfKey(d, k);
    var r := if i < |d| then d[i := (k, v)] else d + [(k, v)];
    PutKeys(d, k, v, r);
    if Valid(d) then
      PutGet(d, k, v, r);
      r
    else
      r
  }

  /** Assigning an existing key replaces its pair in place; a new key is appended. */
  lemma PutKeys<V(!new)>(d: Dict<V>, k: string, v: V, r: Dict<V>)
    requires var i := IndexOfKey(d, k); r == if i < |d| then d[i := (k, v)] else d + [(k, v)]
    ensures Keys(r) == AppendNew(Keys(d), [k])
  {
    var i := IndexOfKey(d, k);
    assert AppendNew(Keys(d), [k]) == if k in Keys(d) then Keys(d) else Keys(d) + [k];
    if i < |d| {
      assert Keys(d)[i] == k;
    } else {
      assert k !in Keys(d);
    }
  }

  /** After `d[k] = v`, `k` maps to `v` and every other key keeps its value. */
  lemma PutGet<V(!new)>(d: Dict<V>, k: string, v: V, r: Dict<V>)
    requires Valid(d)
    requires var i := IndexOfKey(d, k); r == if i < |d| then d[i := (k, v)] else d + [(k, v)]
    ensures Valid(r)
    ensures forall k' :: Get(r, k') == if k' == k then Some(v) else Get(d, k')
  {
    var i := IndexOfKey(d, k);
    if i < |d| {
      ReplaceValid(d, i, v);
      forall k' ensures Get(r, k') == if k' == k then Some(v) else Get(d, k') {
        ReplaceGet(d, i, v, k');
      }
    } else {
      AppendValid(d, k, v);
      forall k' ensures Get(r, k') == if k' == k then Some(v) else Get(d, k') {
        GetAppend(d, [(k, v)], k');
      }
    }
  }

  /** Replacing a value keeps the keys distinct. */
  lemma ReplaceValid<V(!new)>(d: Dict<V>, i: int, v: V)
    requires Valid(d) && 0 <= i < |d|
    ensures Valid(d[i := (d[i].0, v)])
  {
    var r := d[i := (d[i].0, v)];
    assert forall m :: 0 <= m < |d| ==> r[m].0 == d[m].0;
  }

  /** Appending an absent key keeps the keys distinct. */
  lemma AppendValid<V(!new)>(d: Dict<V>, k: string, v: V)
    requires Valid(d) && IndexOfKey(d, k) == |d|
    ensures Valid(d + [(k, v)])
  {
    var r := d + [(k, v)];
    assert forall m :: 0 <= m < |d| ==> r[m].0 == d[m].0 != k;
  }

  /** Replacing the value of the one pair with a key changes that key's value only. */
  lemma ReplaceGet<V(!new)>(d: Dict<V>, i: int, v: V, k': string)
    requires Valid(d) && 0 <= i < |d|
    ensures Get(d[i := (d[i].0, v)], k') == if k' == d[i].0 then Some(v) else Get(d, k')
  {
    var r := d[i := (d[i].0, v)];
    assert forall m :: 0 <= m < |d| ==> r[m].0 == d[m].0;
    GetOfValid(d, k');
    GetOfValid(r, k');
    var j := IndexOfKey(r, k');
    if j < |r| && j != i {
      assert IndexOfKey(d, k') == j by {
        assert d[j].0 == k';
      }
    } else if j == |r| {
      assert IndexOfKey(d, k') == |d|;
    }
  }

  /** `d.update(ps)`: every pair of `ps` assigned in order. */
  function PutAll<V(!new)>(d: Dict<V>, ps: Dict<V>): (r: Dict<V>)
    ensures Keys(r) == AppendNew(Keys(d), Keys(ps))
    ensures Valid(d) ==> Valid(r)
    ensures Valid(d) ==> forall k :: Get(r, k) == if Get(ps, k).Some? then Get(ps, k) else Get(d, k)
    ensures forall p :: p in r ==> p in d || p in ps
    decreases |ps|
  {
    if |ps| == 0 then d
    else
      var d' := Put(d, ps[0].0, ps[0].1);
      var r := PutAll(d', ps[1..]);
      PutAllKeysStep(d, ps);
      GetFirst(ps);
      assert forall p :: p in r ==> p in d || p in ps by {
        assert forall p :: p in ps[1..] ==> p in ps;
      }
      r
  }

  /** Updating with `ps` is assigning its first pair, then updating with the rest: the key order. */
  lemma PutAllKeysStep<V(!new)>(d: Dict<V>, ps: Dict<V>)
    requires |ps| > 0
    ensures AppendNew(AppendNew(Keys(d), [ps[0].0]), Keys(ps[1..])) == AppendNew(Keys(d), Keys(ps))
  {
    assert Keys(ps) == [ps[0].0] + Keys(ps[1..]);
    AppendNewConcat(Keys(d), [ps[0].0], Keys(ps[1..]));
  }

  /** The first pair counts only when no later pair has the key. */
  lemma GetFirst<V(!new)>(ps: Dict<V>)
    requires |ps| > 0
    ensures forall k :: Get(ps, k) ==
                        if Get(ps[1..], k).Some? then Get(ps[1..], k) else if ps[0].0 == k then Some(ps[0].1) else None
  {
    assert [ps[0]] + ps[1..] == ps;
    forall k ensures Get(ps, k) ==
      if Get(ps[1..], k).Some? then Get(ps[1..], k) else if ps[0].0 == k then Some(ps[0].1) else None
    {
      GetCons(ps[0], ps[1..], k);
    }
  }

  /** `xs` with every occurrence of `x` dropped. */
  function Without(xs: seq<string>, x: string): (r: seq<string>)
    ensures forall y :: y in r <==> y in xs && y != x
    decreases |xs|
  {
    if |xs| == 0 then []
    else Without(xs[..|xs| - 1], x) + (if xs[|xs| - 1] == x then [] else [xs[|xs| - 1]])
  }

  /** `del d[k]` (after checking `k in d`): every pair with key `k` dropped. */
  function Remove<V(!new)>(d: Dict<V>, k: string): (r: Dict<V>)
    ensures forall p :: p in r <==> p in d && p.0 != k
    decreases |d|
  {
    if |d| == 0 then []
    else
      var rest := Remove(d[..|d| - 1], k);
      var last := d[|d| - 1];
      if last.0 == k then rest else rest + [last]
  }

  /** After `del d[k]` the key order is the old one without `k`. */
  lemma {:induction false} RemoveKeys<V(!new)>(d: Dict<V>, k: string)
    ensures Keys(Remove(d, k)) == Without(Keys(d), k)
    decreases |d|
  {
    if |d| > 0 {
      var init, last := d[..|d| - 1], d[|d| - 1];
      RemoveKeys(init, k);
      assert Keys(d)[..|d| - 1] == Keys(init);
      assert Keys(d) == Keys(init) + [last.0];
      if last.0 != k {
        assert Keys(Remove(init, k) + [last]) == Keys(Remove(init, k)) + [last.0];
      }
    }
  }

  /** After `del d[k]`, `k` has no value and every other key keeps its value. */
  lemma {:induction false} RemoveGet<V(!new)>(d: Dict<V>, k: string, k': string)
    ensures Get(Remove(d, k), k') == if k' == k then None else Get(d, k')
    decreases |d|
  {
    if |d| > 0 {
      var init, last := d[..|d| - 1], d[|d| - 1];
      RemoveGet(init, k, k');
      if last.0 != k {
        GetAppend(Remove(init, k), [last], k');
      }
    }
  }

  lemma {:induction false} RemoveValid<V(!new)>(d: Dict<V>, k: string)
    requires Valid(d)
    ensures Valid(Remove(d, k))
    decreases |d|
  {
    if |d| > 0 {
      var init, last := d[..|d| - 1], d[|d| - 1];
      RemoveValid(init, k);
      var rest := Remove(init, k);
      if last.0 != k {
        forall i | 0 <= i < |rest| ensures rest[i].0 != last.0 {
          assert rest[i] in init;
        }
      }
    }
  }

  /** `del` on a concatenation drops the key from both parts. */
  lemma {:induction false} RemoveConcat<V(!new)>(a: Dict<V>, b: Dict<V>, k: string)
    ensures Remove(a + b, k) == Remove(a, k) + Remove(b, k)
    decreases |b|
  {
    if |b| == 0 {
      assert a + b == a;
    } else {
      assert (a + b)[..|a + b| - 1] == a + b[..|b| - 1];
      RemoveConcat(a, b[..|b| - 1], k);
    }
  }

  /** Dropping a key that is not there changes nothing. */
  lemma {:induction false} RemoveAbsent<V(!new)>(d: Dict<V>, k: string)
    requires k !in Keys(d)
    ensures Remove(d, k) == d
    decreases |d|
  {
    if |d| > 0 {
      assert Keys(d)[..|d| - 1] == Keys(d[..|d| - 1]);
      RemoveAbsent(d[..|d| - 1], k);
      assert d == d[..|d| - 1] + [d[|d| - 1]];
    }
  }

  // ---------------------------------------------------------------------
  // Lemmas about Get and Keys
  // ---------------------------------------------------------------------

  /** A position where `x` occurs in `s`. */
  lemma Position<T>(s: seq<T>, x: T) returns (j: int)
    requires x in s
    ensures 0 <= j < |s| && s[j] == x
  {
    j :| 0 <= j < |s| && s[j] == x;
  }

  /** On a valid dict, `Get` returns the value of the one entry with that key. */
  lemma GetOfValid<V(!new)>(d: Dict<V>, k: string)
    requires Valid(d)
    ensures var i := IndexOfKey(d, k); Get(d, k) == if i < |d| then Some(d[i].1) else None
    decreases |d|
  {
    if |d| > 0 {
      var init := d[..|d| - 1];
      assert Valid(init);
      GetOfValid(init, k);
      var i := IndexOfKey(d, k);
      var j := IndexOfKey(init, k);
      if d[|d| - 1].0 != k {
        if i < |d| - 1 {
          assert init[i].0 == k;
          assert j == i;
        } else {
          assert i == |d|;
          assert j == |init|;
        }
      } else {
        assert i == |d| - 1;
      }
    }
  }

  /** A key has a value exactly when it is one of the keys. */
  lemma GetIsSomeIffKey<V(!new)>(d: Dict<V>, k: string)
    ensures Get(d, k).Some? <==> k in Keys(d)
    decreases |d|
  {
    if |d| > 0 {
      GetIsSomeIffKey(d[..|d| - 1], k);
      assert Keys(d) == Keys(d[..|d| - 1]) + [d[|d| - 1].0];
    }
  }

  /** The last pair for a key is the one `Get` finds. */
  lemma GetLastPair<V(!new)>(ps: Dict<V>, i: int)
    requires 0 <= i < |ps|
    requires forall j :: i < j < |ps| ==> ps[j].0 != ps[i].0
    ensures Get(ps, ps[i].0) == Some(ps[i].1)
    decreases |ps|
  {
    if i < |ps| - 1 {
      GetLastPair(ps[..|ps| - 1], i);
    }
  }

  /** What `Get` finds is one of the pairs. */
  lemma GetIsPair<V(!new)>(d: Dict<V>, k: string)
    ensures Get(d, k).Some? ==> (k, Get(d, k).value) in d
    decreases |d|
  {
    if |d| > 0 && d[|d| - 1].0 != k {
      GetIsPair(d[..|d| - 1], k);
    }
  }

  /** Looking up in a concatenation: the later part wins. */
  lemma GetAppend<V(!new)>(d: Dict<V>, e: Dict<V>, k: string)
    ensures Get(d + e, k) == if Get(e, k).Some? then Get(e, k) else Get(d, k)
    decreases |e|
  {
    if |e| == 0 {
      assert d + e == d;
    } else {
      assert (d + e)[..|d + e| - 1] == d + e[..|e| - 1];
      GetAppend(d, e[..|e| - 1], k);
    }
  }

  /** Looking up in `[p] + ps`: `p` counts only when `ps` has no pair for the key. */
  lemma GetCons<V(!new)>(p: (string, V), ps: Dict<V>, k: string)
    ensures Get([p] + ps, k) == if Get(ps, k).Some? then Get(ps, k) else if p.0 == k then Some(p.1) else None
  {
    GetAppend([p], ps, k);
  }

  // ---------------------------------------------------------------------
  // Lemmas about key order
  // ---------------------------------------------------------------------

  lemma AppendNewMembers(xs: seq<string>, ys: seq<string>)
    ensures forall x :: x in AppendNew(xs, ys) <==> x in xs || x in ys
    decreases |ys|
  {
    if |ys| > 0 {
      AppendNewMembers(if ys[0] in xs then xs else xs + [ys[0]], ys[1..]);
      assert ys == [ys[0]] + ys[1..];
    }
  }

  lemma {:induction false} AppendNewDistinct(xs: seq<string>, ys: seq<string>)
    requires Distinct(xs)
    ensures Distinct(AppendNew(xs, ys))
    decreases |ys|
  {
    if |ys| > 0 {
      AppendNewDistinct(if ys[0] in xs then xs else xs + [ys[0]], ys[1..]);
    }
  }

  lemma {:induction false} DedupMembers(ys: seq<string>)
    ensures forall x :: x in Dedup(ys) <==> x in ys
    ensures Distinct(Dedup(ys))
  {
    AppendNewMembers([], ys);
    AppendNewDistinct([], ys);
  }

  /** Inserting keys that are all new, and distinct, appends them. */
  lemma {:induction false} AppendNewFresh(xs: seq<string>, ys: seq<string>)
    requires Distinct(xs + ys)
    ensures AppendNew(xs, ys) == xs + ys
    decreases |ys|
  {
    if |ys| > 0 {
      assert (xs + ys)[|xs|] == ys[0];
      assert ys[0] !in xs by {
        forall i | 0 <= i < |xs| ensures xs[i] != ys[0] {
          assert (xs + ys)[i] == xs[i];
        }
      }
      assert (xs + [ys[0]]) + ys[1..] == xs + ys;
      AppendNewFresh(xs + [ys[0]], ys[1..]);
    }
  }

  /** Deduplicating keys that are already distinct changes nothing. */
  lemma DedupDistinct(ys: seq<string>)
    requires Distinct(ys)
    ensures Dedup(ys) == ys
  {
    assert [] + ys == ys;
    AppendNewFresh([], ys);
  }

  /** Inserting `ys` then `zs` is inserting `ys + zs`. */
  lemma {:induction false} AppendNewConcat(xs: seq<string>, ys: seq<string>, zs: seq<string>)
    ensures AppendNew(AppendNew(xs, ys), zs) == AppendNew(xs, ys + zs)
    decreases |ys|
  {
    if |ys| > 0 {
      assert (ys + zs)[0] == ys[0];
      assert (ys + zs)[1..] == ys[1..] + zs;
      AppendNewConcat(if ys[0] in xs then xs else xs + [ys[0]], ys[1..], zs);
    } else {
      assert ys + zs == zs;
    }
  }

  /** Inserting keys that are all present already changes nothing. */
  lemma {:induction false} AppendNewPresent(xs: seq<string>, ys: seq<string>)
    requires forall y :: y in ys ==> y in xs
    ensures AppendNew(xs, ys) == xs
    decreases |ys|
  {
    if |ys| > 0 {
      assert ys[0] in xs;
      AppendNewPresent(xs, ys[1..]);
    }
  }

  /** Inserting the deduplicated keys is inserting the keys. */
  lemma {:induction false} AppendNewDedup(xs: seq<string>, ys: seq<string>)
    ensures AppendNew(xs, Dedup(ys)) == AppendNew(xs, ys)
    decreases |ys|
  {
    if |ys| > 0 {
      var init, y := ys[..|ys| - 1], ys[|ys| - 1];
      assert ys == init + [y];
      AppendNewDedup(xs, init);
      AppendNewConcat([], init, [y]);
      // Dedup(ys) == AppendNew(Dedup(init), [y])
      AppendNewMembers([], init);
      AppendNewMembers(xs, init);
      if y in init {
        AppendNewPresent(Dedup(init), [y]);
        AppendNewPresent(AppendNew(xs, init), [y]);
        AppendNewConcat(xs, init, [y]);
      } else {
        assert AppendNew(Dedup(init), [y]) == Dedup(init) + [y];
        AppendNewConcat(xs, Dedup(init), [y]);
        AppendNewConcat(xs, init, [y]);
      }
    }
  }

  // ---------------------------------------------------------------------
  // Lemmas about dict.update
  // ---------------------------------------------------------------------

  /** Updating with `a + b` is updating with `a`, then with `b`. */
  lemma {:induction false} PutAllConcat<V(!new)>(d: Dict<V>, a: Dict<V>, b: Dict<V>)
    ensures PutAll(d, a + b) == PutAll(PutAll(d, a), b)
    decreases |a|
  {
    if |a| == 0 {
      assert a + b == b;
    } else {
      assert (a + b)[0] == a[0];
      assert (a + b)[1..] == a[1..] + b;
      PutAllConcat(Put(d, a[0].0, a[0].1), a[1..], b);
    }
  }

  /** A dict built by updates from the empty dict is valid. */
  lemma BuiltIsValid<V(!new)>(ps: Dict<V>)
    ensures Valid(PutAll([], ps))
  {
    assert Valid<V>([]);
  }
}

=== FILE: merge.dfy ===
/**
 The two merge loops of the bake-file compiler, independent of what is merged.

 `MergeInto` is `for entry in entries: d.update({name: value})`, where computing an entry
 may raise; the first exception aborts the loop. `CollectInto` is the loop over products:
 each product's dict is merged into the running one and recorded, by its keys, under the
 product's name.
 */
module Merge {
  import opened Results
  import opened Dicts

  predicate AllSucceed<T>(rs: seq<Result<T>>) {
    forall i :: 0 <= i < |rs| ==> rs[i].Success?
  }

  /** The values of results that all succeeded, in order. */
  function Values<T>(rs: seq<Result<T>>): (vs: seq<T>)
    requires AllSucceed(rs)
    ensures |vs| == |rs|
    ensures forall i :: 0 <= i < |rs| ==> vs[i] == rs[i].value
  {
    seq(|rs|, i requires 0 <= i < |rs| => rs[i].value)
  }

  /** The exception of the first result that failed. */
  function FirstError<T>(rs: seq<Result<T>>): (e: Error)
    requires !AllSucceed(rs)
    ensures exists i :: (0 <= i < |rs| && rs[i].Failure? && rs[i].error == e &&
      forall j :: 0 <= j < i ==> rs[j].Success?)
  {
    if rs[0].Failure? then rs[0].error
    else
      var e := FirstError(rs[1..]);
      var i :| 0 <= i < |rs[1..]| && rs[1..][i].Failure? && rs[1..][i].error == e &&
        forall j :: 0 <= j < i ==> rs[1..][j].Success?;
      assert rs[i + 1] == rs[1..][i];
      assert forall j :: 0 <= j < i + 1 ==> rs[j].Success? by {
        forall j | 0 < j < i + 1 ensures rs[j].Success? {
          assert rs[j] == rs[1..][j - 1];
        }
      }
      e
  }

  /** All values of a list of dicts, concatenated (`d.update(a); d.update(b)` is `d.update(a + b)`). */
  function Flatten<V>(ds: seq<Dict<V>>): Dict<V>
    decreases |ds|
  {
    if |ds| == 0 then [] else ds[0] + Flatten(ds[1..])
  }

  /**
   Merges the entries into `d` one by one, in order, stopping at the first failure. On
   success the result is `d` updated with every entry, so a later entry overwrites an
   earlier one with the same name in place.
   */
  function MergeInto<T(!new)>(d: Dict<T>, rs: seq<Result<(string, T)>>): (r: Result<Dict<T>>)
    ensures r.Success? <==> AllSucceed(rs)
    ensures r.Failure? ==> r.error == FirstError(rs)
    ensures r.Success? ==> r.value == PutAll(d, Values(rs))
    decreases |rs|
  {
    if |rs| == 0 then Success(d)
    else
      var entry :- rs[0];
      var r := MergeInto(Put(d, entry.0, entry.1), rs[1..]);
      AllSucceedTail(rs);
      r
  }

  /** The keys of each dict, named: what each product's group lists. */
  function Named<V(!new)>(names: seq<string>, ds: seq<Dict<V>>): (gs: Dict<seq<string>>)
    requires |names| == |ds|
    ensures |gs| == |ds|
    ensures forall i :: 0 <= i < |ds| ==> gs[i] == (names[i], Keys(ds[i]))
  {
    seq(|ds|, i requires 0 <= i < |ds| => (names[i], Keys(ds[i])))
  }

  /**
   The loop over products: each product's dict (or the exception computing it raised) is
   merged into `targets`, and its keys are recorded in `groups` under the product's name.
   On success `targets` has been updated with all the dicts in order and `groups` with one
   entry per product, a repeated name reassigning its entry in place.
   */
  function CollectInto<T(!new)>(targets: Dict<T>, groups: Dict<seq<string>>,
                                names: seq<string>, rs: seq<Result<Dict<T>>>)
    : (r: Result<(Dict<T>, Dict<seq<string>>)>)
    requires |names| == |rs|
    ensures r.Success? <==> AllSucceed(rs)
    ensures r.Failure? ==> r.error == FirstError(rs)
    ensures r.Success? ==> r.value.0 == PutAll(targets, Flatten(Values(rs)))
    ensures r.Success? ==> r.value.1 == PutAll(groups, Named(names, Values(rs)))
    decreases |rs|
  {
    if |rs| == 0 then
      assert Flatten(Values(rs)) == [];
      Success((targets, groups))
    else
      var merged :- rs[0];
      var r := CollectInto(PutAll(targets, merged), Put(groups, names[0], Keys(merged)), names[1..], rs[1..]);
      AllSucceedTail(rs);
      if AllSucceed(rs) then
        CollectStep(targets, groups, names, rs);
        r
      else
        r
  }

  lemma AllSucceedTail<T>(rs: seq<Result<T>>)
    requires |rs| > 0
    ensures AllSucceed(rs) <==> rs[0].Success? && AllSucceed(rs[1..])
    ensures AllSucceed(rs) ==> Values(rs) == [rs[0].value] + Values(rs[1..])
  {
    assert forall i :: 0 < i < |rs| ==> rs[i] == rs[1..][i - 1];
  }

  /** One product of the loop: its dict and its group entry go first, the rest follow. */
  lemma CollectStep<T(!new)>(targets: Dict<T>, groups: Dict<seq<string>>,
                             names: seq<string>, rs: seq<Result<Dict<T>>>)
    requires |names| == |rs| > 0 && AllSucceed(rs)
    ensures PutAll(PutAll(targets, rs[0].value), Flatten(Values(rs[1..]))) == PutAll(targets, Flatten(Values(rs)))
    ensures PutAll(Put(groups, names[0], Keys(rs[0].value)), Named(names[1..], Values(rs[1..]))) ==
      PutAll(groups, Named(names, Values(rs)))
  {
    AllSucceedTail(rs);
    var vs := Values(rs);
    assert vs[1..] == Values(rs[1..]);
    assert Flatten(vs) == rs[0].value + Flatten(vs[1..]);
    PutAllConcat(targets, rs[0].value, Flatten(vs[1..]));
    var ns := Named(names, vs);
    assert ns[0] == (names[0], Keys(rs[0].value));
    assert ns[1..] == Named(names[1..], vs[1..]);
  }

  /** The lists concatenated, in order. */
  function Concat(xss: seq<seq<string>>): seq<string>
    decreases |xss|
  {
    if |xss| == 0 then [] else xss[0] + Concat(xss[1..])
  }

  /** A pair of the concatenation is a pair of one of the dicts. */
  lemma {:induction false} InFlatten<V>(ds: seq<Dict<V>>, p: (string, V))
    requires p in Flatten(ds)
    ensures exists i :: 0 <= i < |ds| && p in ds[i]
    decreases |ds|
  {
    if p !in ds[0] {
      InFlatten(ds[1..], p);
      var i :| 0 <= i < |ds[1..]| && p in ds[1..][i];
      assert ds[i + 1] == ds[1..][i];
    }
  }

  /** Dicts that agree on every lookup, one by one, agree on every lookup once concatenated. */
  lemma {:induction false} GetFlatten<V(!new)>(ds: seq<Dict<V>>, es: seq<Dict<V>>, k: string)
    requires |ds| == |es|
    requires forall i :: 0 <= i < |ds| ==> Get(ds[i], k) == Get(es[i], k)
    ensures Get(Flatten(ds), k) == Get(Flatten(es), k)
    decreases |ds|
  {
    if |ds| > 0 {
      GetFlatten(ds[1..], es[1..], k);
      GetAppend(ds[0], Flatten(ds[1..]), k);
      GetAppend(es[0], Flatten(es[1..]), k);
    }
  }

  lemma KeysAppend<V(!new)>(a: Dict<V>, b: Dict<V>)
    ensures Keys(a + b) == Keys(a) + Keys(b)
  {
  }

  /**
   Inserting the keys of dicts, each of which holds a list of names once each in order of
   first occurrence, is inserting the names themselves.
   */
  lemma {:induction false} AppendNewFlatten<V(!new)>(xs: seq<string>, ds: seq<Dict<V>>, nss: seq<seq<string>>)
    requires |ds| == |nss|
    requires forall i :: 0 <= i < |ds| ==> Keys(ds[i]) == Dedup(nss[i])
    ensures AppendNew(xs, Keys(Flatten(ds))) == AppendNew(xs, Concat(nss))
    decreases |ds|
  {
    if |ds| > 0 {
      KeysAppend(ds[0], Flatten(ds[1..]));
      AppendNewConcat(xs, Dedup(nss[0]), Keys(Flatten(ds[1..])));
      AppendNewDedup(xs, nss[0]);
      AppendNewFlatten(AppendNew(xs, nss[0]), ds[1..], nss[1..]);
      AppendNewConcat(xs, nss[0], Concat(nss[1..]));
    } else {
      assert Keys(Flatten(ds)) == [];
    }
  }
}

=== FILE: preflight.dfy ===
/**
 The pure parts of `preflight.py`: collecting the image tags a bake-file name stands for,
 choosing which of them to check, and the `preflight check container` invocation for each.
 */
module Preflight {
  import opened Results
  import opened Dicts
  import opened Text
  import opened Merge
  import opened Bake
  import opened ImageArgs

  /** The tags of a target, or none when the bake file has no such target. */
  function OwnTags(bakefile: Bakefile, name: string): seq<string> {
    match Get(bakefile.target, name)
    case None => []
    case Some(t) => t.tags
  }

  /** The members of a group, or none when the bake file has no such group. */
  function Members(bakefile: Bakefile, name: string): seq<string> {
    Get(bakefile.group, name).GetOr([])
  }

  /**
   `get_images_for_target(name, bakefile)`: the images of every member of the group `name`
   in member order, then the tags of the target `name`. `depth` is how many nested calls
   the interpreter still allows; running out raises `RecursionError`, which is what a group
   that (directly or not) contains itself comes to.
   */
  function ImagesFor(bakefile: Bakefile, name: string, depth: nat): Result<seq<string>>
    decreases depth, 0
  {
    if depth == 0 then Failure(RecursionError)
    else
      var nested :- ImagesForAll(bakefile, Members(bakefile, name), depth - 1);
      Success(nested + OwnTags(bakefile, name))
  }

  /** The images of several names, concatenated in order; the first exception aborts. */
  function ImagesForAll(bakefile: Bakefile, names: seq<string>, depth: nat): Result<seq<string>>
    decreases depth, |names| + 1
  {
    if |names| == 0 then Success([])
    else
      var first :- ImagesFor(bakefile, names[0], depth);
      var rest :- ImagesForAll(bakefile, names[1..], depth);
      Success(first + rest)
  }

  /** A name that is not a group stands for its own tags, if any. */
  lemma TargetImages(bakefile: Bakefile, name: string, depth: nat)
    requires depth > 0 && Get(bakefile.group, name).None?
    ensures ImagesFor(bakefile, name, depth) == Success(OwnTags(bakefile, name))
  {
    assert Members(bakefile, name) == [];
    assert ImagesForAll(bakefile, [], depth - 1) == Success([]);
    assert [] + OwnTags(bakefile, name) == OwnTags(bakefile, name);
  }

  /** A name that is neither a group nor a target stands for no images. */
  lemma UnknownNameHasNoImages(bakefile: Bakefile, name: string, depth: nat)
    requires depth > 0
    requires Get(bakefile.group, name).None? && Get(bakefile.target, name).None?
    ensures ImagesFor(bakefile, name, depth) == Success([])
  {
    TargetImages(bakefile, name, depth);
  }

  /** Tags of the named targets, concatenated in order. */
  function TagsOf(bakefile: Bakefile, names: seq<string>): seq<string>
    decreases |names|
  {
    if |names| == 0 then [] else OwnTags(bakefile, names[0]) + TagsOf(bakefile, names[1..])
  }

  /** No name in the list is a group. */
  predicate NoGroups(bakefile: Bakefile, names: seq<string>) {
    forall i :: 0 <= i < |names| ==> Get(bakefile.group, names[i]).None?
  }

  /** Names that are not groups stand for their own tags, in order. */
  lemma {:induction false} LeafImages(bakefile: Bakefile, names: seq<string>, depth: nat)
    requires depth > 0 && NoGroups(bakefile, names)
    ensures ImagesForAll(bakefile, names, depth) == Success(TagsOf(bakefile, names))
    decreases |names|
  {
    if |names| > 0 {
      assert Members(bakefile, names[0]) == [];
      assert NoGroups(bakefile, names[1..]) by {
        forall i | 0 <= i < |names[1..]| ensures Get(bakefile.group, names[1..][i]).None? {
          assert names[1..][i] == names[i + 1];
        }
      }
      LeafImages(bakefile, names[1..], depth);
      TargetImages(bakefile, names[0], depth);
    }
  }

  /**
   A group whose members are plain targets (as a product's group is) stands for its
   members' tags in member order, followed by its own tags should it also be a target.
   */
  lemma GroupImages(bakefile: Bakefile, name: string, depth: nat)
    requires depth > 1 && NoGroups(bakefile, Members(bakefile, name))
    ensures ImagesFor(bakefile, name, depth) ==
      Success(TagsOf(bakefile, Members(bakefile, name)) + OwnTags(bakefile, name))
  {
    LeafImages(bakefile, Members(bakefile, name), depth - 1);
  }

  /**
   In a generated bake file, a product's images are the tags of its targets in version
   order, each target once, provided none of its target names is itself a group.
   */
  lemma ProductImages(opts: Options, stamp: Stamp, catalog: Catalog, i: int, depth: nat)
    requires Buildable(catalog.products) && depth > 1
    requires 0 <= i < |catalog.products| && catalog.products[i].name != "default"
    requires forall j :: i < j < |catalog.products| ==> catalog.products[j].name != catalog.products[i].name
    requires var b := GenerateBakefile(opts, stamp, catalog).value;
      NoGroups(b, Members(b, catalog.products[i].name))
    ensures var b := GenerateBakefile(opts, stamp, catalog).value;
      var p := catalog.products[i];
      ImagesFor(b, p.name, depth) ==
        Success(TagsOf(b, Dedup(TargetNames(p.name, p.versions.GetOr([])))) + OwnTags(b, p.name))
  {
    var b := GenerateBakefile(opts, stamp, catalog).value;
    BakefileProductGroup(opts, stamp, catalog, i);
    GroupImages(b, catalog.products[i].name, depth);
  }

  /** The images of groups of plain targets: each group's members' tags, then its own, in order. */
  function GroupsImages(bakefile: Bakefile, names: seq<string>): seq<string>
    decreases |names|
  {
    if |names| == 0 then []
    else
      var first := TagsOf(bakefile, Members(bakefile, names[0])) + OwnTags(bakefile, names[0]);
      first + GroupsImages(bakefile, names[1..])
  }

  /** Every named group has only plain targets as members. */
  predicate FlatGroups(bakefile: Bakefile, names: seq<string>) {
    forall i :: 0 <= i < |names| ==> NoGroups(bakefile, Members(bakefile, names[i]))
  }

  /** Groups of plain targets, listed one after the other, stand for their images in order. */
  lemma {:induction false} NestedImages(bakefile: Bakefile, names: seq<string>, depth: nat)
    requires depth > 1 && FlatGroups(bakefile, names)
    ensures ImagesForAll(bakefile, names, depth) == Success(GroupsImages(bakefile, names))
    decreases |names|
  {
    if |names| > 0 {
      GroupImages(bakefile, names[0], depth);
      assert FlatGroups(bakefile, names[1..]) by {
        forall i | 0 <= i < |names[1..]| ensures NoGroups(bakefile, Members(bakefile, names[1..][i])) {
          assert names[1..][i] == names[i + 1];
        }
      }
      NestedImages(bakefile, names[1..], depth);
    }
  }

  /** Each product's images as `ProductImages` gives them, in catalog order. */
  function CatalogImages(bakefile: Bakefile, products: seq<Product>): seq<string>
    requires Buildable(products)
    decreases |products|
  {
    if |products| == 0 then []
    else
      var p := products[0];
      TagsOf(bakefile, Dedup(TargetNames(p.name, p.versions.GetOr([])))) + OwnTags(bakefile, p.name)
        + CatalogImages(bakefile, products[1..])
  }

  /** When each product's group lists its targets, the groups' images are the catalog's. */
  lemma {:induction false} GroupsAreCatalog(bakefile: Bakefile, products: seq<Product>)
    requires Buildable(products)
    requires forall i :: 0 <= i < |products| ==>
      Members(bakefile, products[i].name) == Dedup(TargetNames(products[i].name, products[i].versions.GetOr([])))
    ensures GroupsImages(bakefile, ProductNames(products)) == CatalogImages(bakefile, products)
    decreases |products|
  {
    if |products| > 0 {
      assert ProductNames(products)[1..] == ProductNames(products[1..]);
      GroupsAreCatalog(bakefile, products[1..]);
    }
  }

  /**
   In a generated bake file, the `default` group stands for every product's images, in
   catalog order, each as `ProductImages` gives it; then the tags of a target that might be
   called `default`. Holds when the product names are distinct and none is `default`, and
   every product's members are targets and not groups.
   */
  lemma DefaultImages(opts: Options, stamp: Stamp, catalog: Catalog, depth: nat)
    requires Buildable(catalog.products) && depth > 2
    requires Distinct(ProductNames(catalog.products)) && "default" !in ProductNames(catalog.products)
    requires FlatGroups(GenerateBakefile(opts, stamp, catalog).value, ProductNames(catalog.products))
    ensures var b := GenerateBakefile(opts, stamp, catalog).value;
      ImagesFor(b, "default", depth) == Success(CatalogImages(b, catalog.products) + OwnTags(b, "default"))
  {
    var b := GenerateBakefile(opts, stamp, catalog).value;
    var names := ProductNames(catalog.products);
    DefaultMembers(opts, stamp, catalog);
    NestedImages(b, names, depth - 1);
    GroupsAreCatalog(b, catalog.products);
    assert ImagesForAll(b, Members(b, "default"), depth - 1) == Success(CatalogImages(b, catalog.products));
  }

  /**
   With distinct product names, none of them `default`, the `default` group lists the
   products in catalog order and each product's group lists its targets.
   */
  lemma DefaultMembers(opts: Options, stamp: Stamp, catalog: Catalog)
    requires Buildable(catalog.products)
    requires Distinct(ProductNames(catalog.products)) && "default" !in ProductNames(catalog.products)
    ensures var b := GenerateBakefile(opts, stamp, catalog).value;
      && Members(b, "default") == ProductNames(catalog.products)
      && forall i :: 0 <= i < |catalog.products| ==>
        Members(b, catalog.products[i].name)
        == Dedup(TargetNames(catalog.products[i].name, catalog.products[i].versions.GetOr([])))
  {
    var b := GenerateBakefile(opts, stamp, catalog).value;
    var ps := catalog.products;
    BakefileGroups(opts, stamp, catalog);
    DedupDistinct(ProductNames(ps));
    forall i | 0 <= i < |ps|
      ensures Members(b, ps[i].name) == Dedup(TargetNames(ps[i].name, ps[i].versions.GetOr([])))
    {
      assert ProductNames(ps)[i] == ps[i].name;
      BakefileProductGroup(opts, stamp, catalog, i);
    }
  }

  /** A group that lists itself never finishes: every depth runs out. */
  lemma {:induction false} SelfMemberRecursionError(bakefile: Bakefile, name: string, depth: nat)
    requires |Members(bakefile, name)| > 0 && Members(bakefile, name)[0] == name
    ensures ImagesFor(bakefile, name, depth) == Failure(RecursionError)
    decreases depth
  {
    if depth > 0 {
      SelfMemberRecursionError(bakefile, name, depth - 1);
    }
  }

  // ---------------------------------------------------------------------
  // Which images are checked
  // ---------------------------------------------------------------------

  /**
   `filter(lambda i: i.endswith(image_version), images)`: the images whose tag ends with
   the image version, in order; platform release tags such as `23.4` drop out. Together
   with `ImagesToCheckConcat`, the empty and one-image cases fix the whole result.
   */
  function ImagesToCheck(images: seq<string>, imageVersion: string): (r: seq<string>)
    ensures forall i :: 0 <= i < |r| ==> EndsWith(r[i], imageVersion)
    ensures forall x :: x in r <==> x in images && EndsWith(x, imageVersion)
    ensures images == [] ==> r == []
    ensures |images| == 1 ==> r == if EndsWith(images[0], imageVersion) then images else []
    decreases |images|
  {
    if |images| == 0 then []
    else (if EndsWith(images[0], imageVersion) then [images[0]] else []) + ImagesToCheck(images[1..], imageVersion)
  }

  /** How often `x` should occur after filtering: as often as in `images` when its tag ends with the version. */
  function Kept(images: seq<string>, imageVersion: string, x: string): nat {
    if EndsWith(x, imageVersion) then multiset(images)[x] else 0
  }

  /** Every kept image is kept as often as it occurs; the others not at all. */
  lemma {:induction false} ImagesToCheckCounts(images: seq<string>, imageVersion: string)
    ensures forall x :: multiset(ImagesToCheck(images, imageVersion))[x] == Kept(images, imageVersion, x)
    decreases |images|
  {
    if |images| > 0 {
      ImagesToCheckCounts(images[1..], imageVersion);
      var head := if EndsWith(images[0], imageVersion) then [images[0]] else [];
      KeepStep(images, imageVersion, head, ImagesToCheck(images[1..], imageVersion));
    }
  }

  /** One step of the count: the first image, kept or not, before the filtered rest. */
  lemma KeepStep(images: seq<string>, imageVersion: string, head: seq<string>, rest: seq<string>)
    requires |images| > 0
    requires head == if EndsWith(images[0], imageVersion) then [images[0]] else []
    requires forall x :: multiset(rest)[x] == if EndsWith(x, imageVersion) then multiset(images[1..])[x] else 0
    ensures forall x :: multiset(head + rest)[x] == if EndsWith(x, imageVersion) then multiset(images)[x] else 0
  {
    var y, t := images[0], images[1..];
    assert images == [y] + t;
    assert multiset(images) == multiset{y} + multiset(t);
    if EndsWith(y, imageVersion) {
      assert head + rest == [y] + rest;
      assert multiset(head + rest) == multiset{y} + multiset(rest);
      forall x
        ensures multiset(head + rest)[x] == if EndsWith(x, imageVersion) then multiset(images)[x] else 0
      {
        if !EndsWith(x, imageVersion) {
          assert x != y;
        }
      }
    } else {
      assert head + rest == rest;
      forall x
        ensures multiset(head + rest)[x] == if EndsWith(x, imageVersion) then multiset(images)[x] else 0
      {
        if EndsWith(x, imageVersion) {
          assert x != y;
        }
      }
    }
  }

  /** Filtering keeps the images' order: it distributes over concatenation. */
  lemma {:induction false} ImagesToCheckConcat(a: seq<string>, b: seq<string>, imageVersion: string)
    ensures ImagesToCheck(a + b, imageVersion) == ImagesToCheck(a, imageVersion) + ImagesToCheck(b, imageVersion)
    decreases |a|
  {
    if |a| > 0 {
      var t := a[1..];
      assert a == [a[0]] + t;
      assert a + b == [a[0]] + (t + b);
      ImagesToCheckConcat(t, b, imageVersion);
      ImagesToCheckCons(a[0], t + b, imageVersion);
      ImagesToCheckCons(a[0], t, imageVersion);
    } else {
      assert a + b == b;
    }
  }

  /** The first image is kept or dropped on its own, before the rest are filtered. */
  lemma ImagesToCheckCons(x: string, rest: seq<string>, imageVersion: string)
    ensures ImagesToCheck([x] + rest, imageVersion) ==
      (if EndsWith(x, imageVersion) then [x] else []) + ImagesToCheck(rest, imageVersion)
  {
    assert ([x] + rest)[0] == x;
    assert ([x] + rest)[1..] == rest;
  }

  /** Filtering twice is filtering once. */
  lemma {:induction false} ImagesToCheckIdempotent(images: seq<string>, imageVersion: string)
    ensures ImagesToCheck(ImagesToCheck(images, imageVersion), imageVersion) == ImagesToCheck(images, imageVersion)
    decreases |images|
  {
    if |images| > 0 {
      var head := if EndsWith(images[0], imageVersion) then [images[0]] else [];
      ImagesToCheckConcat(head, ImagesToCheck(images[1..], imageVersion), imageVersion);
      ImagesToCheckIdempotent(images[1..], imageVersion);
      if head != [] {
        assert ImagesToCheck(head, imageVersion) == head by {
          assert head[1..] == [];
        }
      }
    }
  }

  // ---------------------------------------------------------------------
  // The preflight invocations
  // ---------------------------------------------------------------------

  /** What the command line supplies. `architecture` is `""` when none was given. */
  datatype PreflightArgs = PreflightArgs(
    executable: string,
    submit: bool,
    token: string,
    product: string,
    architecture: string)

  /** `conf.open_shift_projects`: a dict per product, holding at least its `id`. */
  type Projects = Dict<Dict<string>>

  /** The certification arguments of a submission; the project id is looked up for the product. */
  function SubmitArgs(args: PreflightArgs, projects: Projects): (r: Result<seq<string>>)
    ensures r.Success? <==> Get(projects, args.product).Some? && Get(Get(projects, args.product).value, "id").Some?
    ensures Get(projects, args.product).None? ==> r == Failure(KeyError(args.product))
    ensures Get(projects, args.product).Some? && Get(Get(projects, args.product).value, "id").None? ==>
      r == Failure(KeyError("id"))
    ensures r.Success? ==> r.value == ["--loglevel", "trace", "--submit", "--pyxis-api-token", args.token,
      "--certification-project-id", "ospid-" + Get(Get(projects, args.product).value, "id").value]
  {
    match Get(projects, args.product)
    case None => Failure(KeyError(args.product))
    case Some(project) =>
      match Get(project, "id")
      case None => Failure(KeyError("id"))
      case Some(id) =>
        Success(["--loglevel", "trace", "--submit", "--pyxis-api-token", args.token,
          "--certification-project-id", "ospid-" + id])
  }

  /**
   The platform arguments: `--platform` and what follows the first `linux/` up to any
   second one. An architecture without `linux/` has no second piece and raises
   `IndexError`.
   */
  function PlatformArgs(architecture: string): (r: Result<seq<string>>)
    requires architecture != ""
    ensures r.Failure? <==> !Contains(architecture, "linux/")
    ensures r.Failure? ==> r.error == IndexError
    ensures r.Success? ==> |r.value| == 2 && r.value[0] == "--platform" && !Contains(r.value[1], "linux/")
    ensures r.Success? ==> SecondPieceOf(architecture, "linux/", r.value[1])
  {
    var pieces := Split(architecture, "linux/");
    SplitPieces(architecture, "linux/");
    SplitHasSecond(architecture, "linux/");
    if |pieces| < 2 then Failure(IndexError)
    else
      SecondPiece(architecture, "linux/");
      Success(["--platform", pieces[1]])
  }

  /**
   Every architecture the command line accepts yields `--platform` and the architecture
   without its `linux/` prefix.
   */
  lemma PlatformOfSupported(architecture: string)
    requires CheckArchitectureInput(architecture).Success?
    ensures |architecture| > 6
    ensures PlatformArgs(architecture) == Success(["--platform", architecture[6..]])
  {
    var rest := architecture[6..];
    assert architecture == "linux/" + rest;
    assert |rest| < |"linux/"|;
    SplitLeading("linux/", rest);
  }

  /**
   Everything after the image: the submission arguments when submitting, then the platform
   arguments when an architecture was given. Neither depends on the image. A missing
   project is reported before a malformed architecture.
   */
  function OptionArgs(args: PreflightArgs, projects: Projects): (r: Result<seq<string>>)
    ensures r.Success? <==>
      && (args.submit ==> Get(projects, args.product).Some? && Get(Get(projects, args.product).value, "id").Some?)
      && (args.architecture != "" ==> Contains(args.architecture, "linux/"))
    ensures args.submit && Get(projects, args.product).None? ==> r == Failure(KeyError(args.product))
    ensures r.Success? ==> |r.value| == (if args.submit then 7 else 0) + (if args.architecture != "" then 2 else 0)
    ensures r.Success? && args.architecture != "" ==> r.value[|r.value| - 2] == "--platform"
    ensures r.Success? && args.architecture != "" ==> SecondPieceOf(args.architecture, "linux/", r.value[|r.value| - 1])
    ensures r.Success? && args.submit ==> r.value[..7] == SubmitArgs(args, projects).value
  {
    var submit :- if args.submit then SubmitArgs(args, projects) else Success([]);
    var platform :- if args.architecture != "" then PlatformArgs(args.architecture) else Success([]);
    Success(submit + platform)
  }

  /** The argument vector for one image: `[executable, "check", "container", img]` and the options. */
  function PreflightArgv(img: string, args: PreflightArgs, projects: Projects): Result<seq<string>> {
    var options :- OptionArgs(args, projects);
    Success([args.executable, "check", "container", img] + options)
  }

  /** The command entry for one image, or the exception building it raised. */
  function Entry(img: string, args: PreflightArgs, projects: Projects): Result<(string, seq<string>)> {
    var argv :- PreflightArgv(img, args, projects);
    Success((img, argv))
  }

  /**
   `preflight_commands(images, args, conf)`: one argument vector per image, keyed by the
   image, built image by image. It fails exactly when there is an image and the options
   cannot be built, with the exception they raise; otherwise every image maps to its own
   vector, and a repeated image keeps its first position.
   */
  function PreflightCommands(images: seq<string>, args: PreflightArgs, projects: Projects): (r: Result<Dict<seq<string>>>)
    ensures r.Success? <==> |images| == 0 || OptionArgs(args, projects).Success?
    ensures r.Failure? ==> r.error == OptionArgs(args, projects).error
    ensures r.Success? ==> Keys(r.value) == Dedup(images) && Valid(r.value)
    ensures r.Success? ==> forall i :: 0 <= i < |images| ==>
      Get(r.value, images[i]) == Some([args.executable, "check", "container", images[i]] + OptionArgs(args, projects).value)
  {
    var r := MergeInto([], CommandEntries(images, args, projects));
    CommandsOutcome(images, args, projects);
    if r.Success? then
      CommandsLookup(images, args, projects);
      r
    else
      r
  }

  /** The command entry of each image, in image order. */
  function CommandEntries(images: seq<string>, args: PreflightArgs, projects: Projects): (rs: seq<Result<(string, seq<string>)>>)
    ensures |rs| == |images|
    ensures forall i :: 0 <= i < |images| ==> rs[i] == Entry(images[i], args, projects)
  {
    seq(|images|, i requires 0 <= i < |images| => Entry(images[i], args, projects))
  }

  /** The entries merge exactly when there is no image or the options can be built. */
  lemma CommandsOutcome(images: seq<string>, args: PreflightArgs, projects: Projects)
    ensures MergeInto([], CommandEntries(images, args, projects)).Success? <==>
      |images| == 0 || OptionArgs(args, projects).Success?
    ensures MergeInto([], CommandEntries(images, args, projects)).Failure? ==>
      MergeInto([], CommandEntries(images, args, projects)).error == OptionArgs(args, projects).error
  {
    var rs := CommandEntries(images, args, projects);
    if OptionArgs(args, projects).Failure? && |images| > 0 {
      assert rs[0].Failure?;
      var e := FirstError(rs);
      var i :| 0 <= i < |rs| && rs[i].Failure? && rs[i].error == e;
      assert rs[i] == Entry(images[i], args, projects);
    }
  }

  /** When the entries merge, every image maps to its own argument vector, each image once. */
  lemma CommandsLookup(images: seq<string>, args: PreflightArgs, projects: Projects)
    requires MergeInto([], CommandEntries(images, args, projects)).Success?
    ensures |images| > 0 ==> OptionArgs(args, projects).Success?
    ensures Keys(MergeInto([], CommandEntries(images, args, projects)).value) == Dedup(images)
    ensures Valid(MergeInto([], CommandEntries(images, args, projects)).value)
    ensures forall i :: 0 <= i < |images| ==>
      Get(MergeInto([], CommandEntries(images, args, projects)).value, images[i]) ==
        Some([args.executable, "check", "container", images[i]] + OptionArgs(args, projects).value)
  {
    var rs := CommandEntries(images, args, projects);
    var r := MergeInto([], rs);
    assert |images| > 0 ==> rs[0].Success?;
    var vs := Values(rs);
    assert Keys(vs) == images;
    forall i | 0 <= i < |images|
      ensures Get(r.value, images[i]) == Some([args.executable, "check", "container", images[i]] + OptionArgs(args, projects).value)
    {
      var k := images[i];
      assert Get(vs, k).Some? by {
        GetIsSomeIffKey(vs, k);
        assert Keys(vs)[i] == k;
      }
      GetIsPair(vs, k);
      var j :| 0 <= j < |vs| && vs[j] == (k, Get(vs, k).value);
    }
  }
}

=== FILE: results.dfy ===
/** Failure-compatible wrappers, and the Python exceptions the modelled code can raise. */
module Results {

  datatype Option<+T> = None | Some(value: T) {

    /** The value, or `default` when there is none (Python's `d.get(k, default)`). */
    function GetOr(default: T): T {
      match this
      case Some(v) => v
      case None => default
    }
  }

  /** The exceptions the modelled functions raise; each carries what Python would report. */
  datatype Error =
    | KeyError(key: string)          // `d[key]` on a missing key
    | ValueError(message: string)    // an explicit `raise ValueError(message)`
    | IndexError                     // `xs[i]` out of range
    | ZeroDivisionError              // `i % 0`
    | RecursionError                 // the interpreter's recursion limit was reached

  /** Either a value or the exception the call raised. */
  datatype Result<+T> = Success(value: T) | Failure(error: Error) {

    predicate IsFailure() {
      Failure?
    }

    function PropagateFailure<U>(): Result<U>
      requires Failure?
    {
      Failure(error)
    }

    function Extract(): T
      requires Success?
    {
      value
    }
  }
}

=== FILE: selector.dfy ===
/**
 `targets_for_selector` of `bake.py`: from the product selectors given on the command line
 to the target names to build.

 A selector is split on EVERY `=`: the first piece names a product, and any further pieces
 are versions, taken as given (they are not looked up in the catalog, and a `,` inside
 one is not a separator). A bare product name selects all its declared versions. No
 selectors at all select every product by name, in catalog order.
 */
module Selector {
  import opened Results
  import opened Dicts
  import opened Text
  import opened Merge
  import opened Bake

  /** The position of the first product with this name, or `|products|` when there is none. */
  function ProductIndex(products: seq<Product>, name: string): (i: nat)
    ensures i <= |products|
    ensures i < |products| ==> products[i].name == name
    ensures forall j :: 0 <= j < i ==> products[j].name != name
    decreases |products|
  {
    if |products| == 0 then 0
    else if products[0].name == name then 0
    else 1 + ProductIndex(products[1..], name)
  }

  /** The first product with this name (`next(...)` over the catalog), if any. */
  function FindProduct(products: seq<Product>, name: string): Option<Product> {
    var i := ProductIndex(products, name);
    if i < |products| then Some(products[i]) else None
  }

  /** A product is found exactly when the catalog has one with that name. */
  lemma FindProductSome(products: seq<Product>, name: string)
    ensures FindProduct(products, name).Some? <==> name in ProductNames(products)
    ensures FindProduct(products, name).Some? ==> FindProduct(products, name).value.name == name
  {
    var i := ProductIndex(products, name);
    if name in ProductNames(products) {
      var j :| 0 <= j < |products| && ProductNames(products)[j] == name;
    }
  }

  /**
   The target names of all declared versions of a product, in version order; a version map
   without `product` raises `KeyError('product')`.
   */
  function DeclaredTargets(name: string, vs: seq<VersionMap>): (r: Result<seq<string>>)
    ensures r.Success? <==> AllHaveProduct(vs)
    ensures r.Failure? ==> r.error == KeyError("product")
    ensures r.Success? ==> r.value == TargetNames(name, vs)
    decreases |vs|
  {
    if |vs| == 0 then Success([])
    else
      var init := vs[..|vs| - 1];
      assert forall i :: 0 <= i < |init| ==> init[i] == vs[i];
      var names :- DeclaredTargets(name, init);
      match Get(vs[|vs| - 1], "product")
      case None => Failure(KeyError("product"))
      case Some(v) => Success(names + [TargetName(name, v)])
  }

  /** One selector: `product_name, *versions = selector.split("=")`, then its targets. */
  function SelectorTargets(products: seq<Product>, selector: string): Result<seq<string>> {
    var parts := Split(selector, "=");
    var name, versions := parts[0], parts[1..];
    match FindProduct(products, name)
    case None => Failure(ValueError("Requested unknown product [" + name + "]"))
    case Some(p) =>
      if |versions| > 0 then
        Success(seq(|versions|, i requires 0 <= i < |versions| => TargetName(name, versions[i])))
      else
        match p.versions
        case None => Failure(KeyError("versions"))
        case Some(vs) => DeclaredTargets(name, vs)
  }

  /** A selector whose product is not in the catalog raises `ValueError`, naming the product. */
  lemma SelectorUnknownProduct(products: seq<Product>, selector: string)
    requires Split(selector, "=")[0] !in ProductNames(products)
    ensures SelectorTargets(products, selector) ==
      Failure(ValueError("Requested unknown product [" + Split(selector, "=")[0] + "]"))
  {
    FindProductSome(products, Split(selector, "=")[0]);
  }

  /**
   A selector with versions gives, for each version in the order written, the target name
   of the product at that version; the versions are not looked up in the catalog.
   */
  lemma SelectorExplicitVersions(products: seq<Product>, selector: string)
    requires var parts := Split(selector, "="); parts[0] in ProductNames(products) && |parts| > 1
    ensures var parts := Split(selector, "=");
      && SelectorTargets(products, selector).Success?
      && |SelectorTargets(products, selector).value| == |parts| - 1
      && forall i :: 1 <= i < |parts| ==>
           SelectorTargets(products, selector).value[i - 1] == TargetName(parts[0], parts[i])
  {
    FindProductSome(products, Split(selector, "=")[0]);
  }

  /**
   A bare product name gives the targets of the first product with that name, or raises
   `KeyError('versions')` when it declares no versions.
   */
  lemma SelectorBareName(products: seq<Product>, selector: string)
    requires var parts := Split(selector, "="); parts[0] in ProductNames(products) && |parts| == 1
    ensures var p := products[ProductIndex(products, selector)];
      && (p.versions.None? ==> SelectorTargets(products, selector) == Failure(KeyError("versions")))
      && (p.versions.Some? ==> SelectorTargets(products, selector) == DeclaredTargets(selector, p.versions.value))
  {
    var parts := Split(selector, "=");
    FindProductSome(products, parts[0]);
    assert Join("=", parts) == parts[0];
  }

  /** Outcomes in order, their targets concatenated; the first exception aborts. */
  function Gather(rs: seq<Result<seq<string>>>): Result<seq<string>>
    decreases |rs|
  {
    if |rs| == 0 then Success([])
    else
      var before :- Gather(rs[..|rs| - 1]);
      var these :- rs[|rs| - 1];
      Success(before + these)
  }

  /** The outcome of each selector on its own. */
  function Outcomes(products: seq<Product>, selectors: seq<string>): (rs: seq<Result<seq<string>>>)
    ensures |rs| == |selectors|
  {
    seq(|selectors|, i requires 0 <= i < |selectors| => SelectorTargets(products, selectors[i]))
  }

  /**
   The loop of `targets_for_selector`: the selectors one by one, their targets concatenated;
   the first exception aborts.
   */
  function SelectAll(products: seq<Product>, selectors: seq<string>): Result<seq<string>> {
    Gather(Outcomes(products, selectors))
  }

  /** The selectors actually used: the ones given, or every product name when none are. */
  function Effective(products: seq<Product>, selectors: seq<string>): seq<string> {
    if |selectors| == 0 then ProductNames(products) else selectors
  }

  /** A catalog in which every product can be selected by its bare name. */
  predicate PlainCatalog(products: seq<Product>) {
    && Buildable(products)
    && Distinct(ProductNames(products))
    && forall i :: 0 <= i < |products| ==> '=' !in products[i].name && products[i].versions.Some?
  }

  /** Selector `i` is the first to fail, and it fails with `e`. */
  predicate FirstFailing(products: seq<Product>, selectors: seq<string>, i: int, e: Error) {
    && 0 <= i < |selectors|
    && SelectorTargets(products, selectors[i]) == Failure(e)
    && forall j :: 0 <= j < i ==> SelectorTargets(products, selectors[j]).Success?
  }

  /** The targets of each selector on its own, when every one of them succeeds. */
  function PerSelector(products: seq<Product>, selectors: seq<string>): (tss: seq<seq<string>>)
    requires forall i :: 0 <= i < |selectors| ==> SelectorTargets(products, selectors[i]).Success?
    ensures |tss| == |selectors|
    ensures forall i :: 0 <= i < |selectors| ==> tss[i] == SelectorTargets(products, selectors[i]).value
  {
    seq(|selectors|, i requires 0 <= i < |selectors| => SelectorTargets(products, selectors[i]).value)
  }

  /**
   `targets_for_selector`: the selectors given, or every product name when there are none.
   It succeeds exactly when every selector used does; the targets are then each selector's
   targets, concatenated in selector order. With no selectors and a catalog whose products
   all have distinct, `=`-free names and declared versions, they are every product's target
   names in catalog and version order.
   */
  function TargetsForSelector(products: seq<Product>, selectors: seq<string>): (r: Result<seq<string>>)
    ensures r.Success? <==> forall i :: 0 <= i < |Effective(products, selectors)| ==>
      SelectorTargets(products, Effective(products, selectors)[i]).Success?
    ensures r.Success? ==> r.value == Concat(PerSelector(products, Effective(products, selectors)))
    ensures r.Failure? ==> exists i :: FirstFailing(products, Effective(products, selectors), i, r.error)
    ensures |selectors| == 0 && PlainCatalog(products) ==> r == Success(AllTargetNames(products))
  {
    var used := Effective(products, selectors);
    SelectAllSucceeds(products, used);
    var r := SelectAll(products, used);
    if |selectors| == 0 && PlainCatalog(products) then
      DefaultSelection(products);
      SelectAllValue(products, used);
      r
    else if r.Success? then
      SelectAllValue(products, used);
      r
    else
      SelectAllError(products, used);
      r
  }

  // ---------------------------------------------------------------------
  // Lemmas
  // ---------------------------------------------------------------------

  /** Gathering succeeds exactly when every outcome is a success. */
  lemma {:induction false} GatherSucceeds(rs: seq<Result<seq<string>>>)
    ensures Gather(rs).Success? <==> forall i :: 0 <= i < |rs| ==> rs[i].Success?
    decreases |rs|
  {
    if |rs| > 0 {
      var init := rs[..|rs| - 1];
      GatherSucceeds(init);
      assert forall i :: 0 <= i < |init| ==> init[i] == rs[i];
    }
  }

  /** Gathering fails with the exception of the first outcome that failed. */
  lemma {:induction false} GatherError(rs: seq<Result<seq<string>>>) returns (i: int)
    requires Gather(rs).Failure?
    ensures 0 <= i < |rs| && rs[i] == Failure(Gather(rs).error)
    ensures forall j :: 0 <= j < i ==> rs[j].Success?
    decreases |rs|
  {
    var init := rs[..|rs| - 1];
    if Gather(init).Failure? {
      i := GatherError(init);
      assert forall j :: 0 <= j <= i ==> init[j] == rs[j];
    } else {
      GatherSucceeds(init);
      i := |rs| - 1;
      assert forall j :: 0 <= j < i ==> init[j] == rs[j];
    }
  }

  /** Selection fails with the exception of the first selector that fails. */
  lemma SelectAllError(products: seq<Product>, selectors: seq<string>)
    requires SelectAll(products, selectors).Failure?
    ensures exists i :: FirstFailing(products, selectors, i, SelectAll(products, selectors).error)
  {
    var rs := Outcomes(products, selectors);
    var i := GatherError(rs);
    assert forall j :: 0 <= j <= i ==> rs[j] == SelectorTargets(products, selectors[j]);
    assert FirstFailing(products, selectors, i, SelectAll(products, selectors).error);
  }

  /** Gathering `rs + ss` gathers `rs`, then `ss`. */
  lemma {:induction false} GatherConcat(rs: seq<Result<seq<string>>>, ss: seq<Result<seq<string>>>)
    ensures Gather(rs + ss).Success? <==> Gather(rs).Success? && Gather(ss).Success?
    ensures Gather(rs + ss).Success? ==> Gather(rs + ss).value == Gather(rs).value + Gather(ss).value
    decreases |ss|
  {
    if |ss| == 0 {
      assert rs + ss == rs;
    } else {
      var init := ss[..|ss| - 1];
      assert (rs + ss)[..|rs + ss| - 1] == rs + init;
      assert (rs + ss)[|rs + ss| - 1] == ss[|ss| - 1];
      GatherConcat(rs, init);
    }
  }

  /** One more selector: its targets come after the others', unless something failed first. */
  lemma SelectAllSnoc(products: seq<Product>, selectors: seq<string>, s: string)
    ensures SelectAll(products, selectors + [s]) ==
      (var before :- SelectAll(products, selectors);
       var these :- SelectorTargets(products, s);
       Success(before + these))
  {
    var rs := Outcomes(products, selectors + [s]);
    assert rs[..|selectors|] == Outcomes(products, selectors);
  }

  /** Selection succeeds exactly when every selector does. */
  lemma SelectAllSucceeds(products: seq<Product>, selectors: seq<string>)
    ensures SelectAll(products, selectors).Success? <==>
      forall i :: 0 <= i < |selectors| ==> SelectorTargets(products, selectors[i]).Success?
  {
    var rs := Outcomes(products, selectors);
    GatherSucceeds(rs);
    assert forall i :: 0 <= i < |selectors| ==> rs[i] == SelectorTargets(products, selectors[i]);
  }

  /**
   Selecting `a + b` selects `a`, then `b`: the output follows selector order, and nothing
   is deduplicated.
   */
  lemma SelectAllConcat(products: seq<Product>, a: seq<string>, b: seq<string>)
    ensures SelectAll(products, a + b).Success? <==>
      SelectAll(products, a).Success? && SelectAll(products, b).Success?
    ensures SelectAll(products, a + b).Success? ==>
      SelectAll(products, a + b).value == SelectAll(products, a).value + SelectAll(products, b).value
  {
    assert Outcomes(products, a + b) == Outcomes(products, a) + Outcomes(products, b);
    GatherConcat(Outcomes(products, a), Outcomes(products, b));
  }

  /** Selecting the same product twice lists its targets twice. */
  lemma SelectTwice(products: seq<Product>, s: string)
    requires SelectAll(products, [s]).Success?
    ensures SelectAll(products, [s, s]).Success?
    ensures SelectAll(products, [s, s]).value == SelectAll(products, [s]).value + SelectAll(products, [s]).value
  {
    SelectAllConcat(products, [s], [s]);
    assert [s] + [s] == [s, s];
  }

  /**
   `p=v1=...=vn` names the targets of `p` at `v1`, ..., `vn`, in that order, whether or not
   the catalog declares those versions; only the product has to exist.
   */
  lemma ExplicitVersionsUnchecked(products: seq<Product>, name: string, vs: seq<string>)
    requires name in ProductNames(products) && '=' !in name
    requires |vs| > 0 && forall i :: 0 <= i < |vs| ==> '=' !in vs[i]
    ensures SelectorTargets(products, Join("=", [name] + vs)).Success?
    ensures SelectorTargets(products, Join("=", [name] + vs)).value ==
      seq(|vs|, i requires 0 <= i < |vs| => TargetName(name, vs[i]))
  {
    var parts := [name] + vs;
    var selector := Join("=", parts);
    SplitSelector(name, vs);
    SelectorExplicitVersions(products, selector);
    var r := SelectorTargets(products, selector).value;
    assert r == seq(|vs|, i requires 0 <= i < |vs| => TargetName(name, vs[i])) by {
      forall i | 0 <= i < |vs| ensures r[i] == TargetName(name, vs[i]) {
        assert parts[i + 1] == vs[i];
      }
    }
  }

  /** No piece of the product and its versions contains `=`. */
  lemma NoEqualsIn(name: string, vs: seq<string>)
    requires '=' !in name && forall i :: 0 <= i < |vs| ==> '=' !in vs[i]
    ensures forall i :: 0 <= i < |[name] + vs| ==> "="[0] !in ([name] + vs)[i]
  {
    var parts := [name] + vs;
    assert forall i :: 1 <= i < |parts| ==> parts[i] == vs[i - 1];
  }

  /** A selector written as a product and versions joined by `=` splits back into them. */
  lemma SplitSelector(name: string, vs: seq<string>)
    requires '=' !in name && forall i :: 0 <= i < |vs| ==> '=' !in vs[i]
    ensures Split(Join("=", [name] + vs), "=") == [name] + vs
  {
    NoEqualsIn(name, vs);
    var parts := [name] + vs;
    SplitJoin("=", parts);
  }

  /**
   A `,` does not separate versions: `p=a,b` selects the one target of `p` at version `a,b`
   (`hbase=2.4,2.6` gives `hbase-2_4,2_6`), even for a product that declares no versions.
   */
  lemma NoCommaSplit(name: string, a: string, b: string)
    requires '=' !in name && '=' !in a && '=' !in b
    ensures SelectorTargets([Product(name, None)], name + "=" + a + "," + b) == Success([TargetName(name, a + "," + b)])
  {
    var products := [Product(name, None)];
    var v := a + "," + b;
    assert ProductNames(products) == [name];
    assert Join("=", [name] + [v]) == name + "=" + v by {
      assert ([name] + [v])[1..] == [v];
    }
    assert name + "=" + a + "," + b == name + "=" + v;
    assert '=' !in v;
    ExplicitVersionsUnchecked(products, name, [v]);
    var r := SelectorTargets(products, name + "=" + v).value;
    assert |r| == 1 && r[0] == TargetName(name, v);
    assert r == [TargetName(name, v)];
    assert SelectorTargets(products, name + "=" + v) == Success(r);
  }

  /** A bare product name selects the targets of all its declared versions. */
  lemma BareNameSelectsDeclared(products: seq<Product>, i: int)
    requires 0 <= i < |products| && '=' !in products[i].name
    requires forall j :: 0 <= j < i ==> products[j].name != products[i].name
    requires products[i].versions.Some? && AllHaveProduct(products[i].versions.value)
    ensures SelectorTargets(products, products[i].name) ==
      Success(TargetNames(products[i].name, products[i].versions.value))
  {
    var name := products[i].name;
    SplitSelector(name, []);
    assert [name] + [] == [name];
  }

  /** On success, selection is each selector's targets concatenated in order. */
  lemma {:induction false} SelectAllValue(products: seq<Product>, selectors: seq<string>)
    requires forall i :: 0 <= i < |selectors| ==> SelectorTargets(products, selectors[i]).Success?
    ensures SelectAll(products, selectors) == Success(Concat(PerSelector(products, selectors)))
    decreases |selectors|
  {
    if |selectors| == 0 {
      assert PerSelector(products, selectors) == [];
    } else {
      var n := |selectors| - 1;
      var init, last := selectors[..n], selectors[n];
      assert selectors == init + [last];
      assert forall i :: 0 <= i < n ==> init[i] == selectors[i];
      SelectAllValue(products, init);
      SelectAllSnoc(products, init, last);
      var ts := SelectorTargets(products, last).value;
      PerSelectorSnoc(products, init, last);
      ConcatSnoc(PerSelector(products, init), ts);
    }
  }

  lemma PerSelectorSnoc(products: seq<Product>, selectors: seq<string>, s: string)
    requires forall i :: 0 <= i < |selectors| ==> SelectorTargets(products, selectors[i]).Success?
    requires SelectorTargets(products, s).Success?
    ensures forall i :: 0 <= i < |selectors + [s]| ==> SelectorTargets(products, (selectors + [s])[i]).Success?
    ensures PerSelector(products, selectors + [s]) == PerSelector(products, selectors) + [SelectorTargets(products, s).value]
  {
  }

  /**
   Selecting every product by its bare name gives every product's declared targets in
   catalog order, provided product names are distinct, free of `=`, and every product
   declares versions.
   */
  lemma DefaultSelection(products: seq<Product>)
    requires PlainCatalog(products)
    ensures SelectAll(products, ProductNames(products)) == Success(AllTargetNames(products))
  {
    var names := ProductNames(products);
    forall i | 0 <= i < |products|
      ensures SelectorTargets(products, names[i]) ==
        Success(TargetNames(products[i].name, products[i].versions.GetOr([])))
    {
      BareNameSelectsDeclared(products, i);
    }
    SelectAllValue(products, names);
    assert PerSelector(products, names) == seq(|products|, i requires 0 <= i < |products| =>
      TargetNames(products[i].name, products[i].versions.GetOr([])));
  }

  /** Appending one list to the lists appends it to their concatenation. */
  lemma {:induction false} ConcatSnoc(xss: seq<seq<string>>, ys: seq<string>)
    ensures Concat(xss + [ys]) == Concat(xss) + ys
    decreases |xss|
  {
    if |xss| == 0 {
      assert xss + [ys] == [ys];
      assert Concat([ys]) == ys + Concat([]);
    } else {
      assert (xss + [ys])[1..] == xss[1..] + [ys];
      ConcatSnoc(xss[1..], ys);
    }
  }

  /**
   With no selectors, building the selected targets builds every target of the bake file:
   the selection, with repeats dropped, is the bake file's target list in order.
   */
  lemma DefaultSelectionIsBakefile(opts: Options, stamp: Stamp, catalog: Catalog)
    requires PlainCatalog(catalog.products)
    ensures TargetsForSelector(catalog.products, []).Success?
    ensures Dedup(TargetsForSelector(catalog.products, []).value) ==
      Keys(GenerateBakefile(opts, stamp, catalog).value.target)
  {
    BakefileTargetOrder(opts, stamp, catalog);
  }
}

=== FILE: shard.dfy ===
/**
 `filter_targets_for_shard` of `bake.py`: the targets whose position `i` satisfies
 `i % shard_count == shard_index`, with Python's `%`, which rounds the quotient down (the
 remainder takes the sign of the divisor) and raises `ZeroDivisionError` for a zero
 divisor. Neither the count nor the index is checked beforehand.
 */
module Shards {
  import opened Results

  /** Python's `a % b` for `b != 0`: the remainder has the sign of `b`. */
  function PyMod(a: int, b: int): int
    requires b != 0
  {
    var r := a % b;
    if b < 0 && r != 0 then r + b else r
  }

  /** Python's `a // b` for `b != 0`: the quotient rounded down. */
  function PyDiv(a: int, b: int): int
    requires b != 0
  {
    if b < 0 && a % b != 0 then a / b - 1 else a / b
  }

  /**
   `a == (a // b) * b + a % b`, and the remainder lies between 0 and `b` (0 included, `b`
   excluded), whatever the signs.
   */
  lemma PyModSpec(a: int, b: int)
    requires b != 0
    ensures a == PyDiv(a, b) * b + PyMod(a, b)
    ensures b > 0 ==> 0 <= PyMod(a, b) < b
    ensures b < 0 ==> b < PyMod(a, b) <= 0
  {
    var q, r := a / b, a % b;
    assert a == q * b + r;
    if b < 0 && r != 0 {
      assert (q - 1) * b == q * b - b;
    }
  }

  lemma {:induction false} MulAtLeast(k: int, b: int)
    requires k >= 1 && b > 0
    ensures k * b >= b
    decreases k
  {
    if k > 1 {
      MulAtLeast(k - 1, b);
      assert k * b == (k - 1) * b + b;
    }
  }

  /** For a positive divisor, quotient and remainder are the only ones with `0 <= r < b`. */
  lemma ModUnique(a: int, b: int, q: int, r: int)
    requires b > 0 && 0 <= r < b && a == q * b + r
    ensures PyMod(a, b) == r && PyDiv(a, b) == q
  {
    var q', r' := a / b, a % b;
    assert a == q' * b + r';
    assert (q - q') * b == r' - r;
    if q > q' {
      MulAtLeast(q - q', b);
    } else if q < q' {
      MulAtLeast(q' - q, b);
    }
  }

  /** The shard as a filter over positions: position `i` is kept when `i % count == index`. */
  function Shard(targets: seq<string>, count: int, index: int): (r: seq<string>)
    requires count != 0
    decreases |targets|
  {
    if |targets| == 0 then []
    else
      var n := |targets| - 1;
      Shard(targets[..n], count, index) + (if PyMod(n, count) == index then [targets[n]] else [])
  }

  /**
   `filter_targets_for_shard(targets, shard_count, shard_index)`, following the
   comprehension: positions are visited in order and `%` is evaluated once per target, so a
   zero count raises only when there is a target.
   */
  method FilterTargetsForShard(targets: seq<string>, count: int, index: int) returns (r: Result<seq<string>>)
    ensures r.Failure? <==> count == 0 && |targets| > 0
    ensures r.Failure? ==> r.error == ZeroDivisionError
    ensures r.Success? && count == 0 ==> r.value == []
    ensures r.Success? && count != 0 ==> r.value == Shard(targets, count, index)
  {
    var kept: seq<string> := [];
    for i := 0 to |targets|
      invariant i > 0 ==> count != 0
      invariant count != 0 ==> kept == Shard(targets[..i], count, index)
      invariant count == 0 ==> kept == []
    {
      if count == 0 {
        return Failure(ZeroDivisionError);
      }
      assert targets[..i + 1][..i] == targets[..i];
      if PyMod(i, count) == index {
        kept := kept + [targets[i]];
      }
    }
    assert targets[..|targets|] == targets;
    return Success(kept);
  }

  // ---------------------------------------------------------------------
  // Lemmas
  // ---------------------------------------------------------------------

  /** Membership: a target at position `i` is in the shard exactly when `i % count == index`. */
  lemma {:induction false} ShardMembers(targets: seq<string>, count: int, index: int)
    requires count != 0
    ensures |Shard(targets, count, index)| <= |targets|
    ensures forall t :: t in Shard(targets, count, index) <==>
      exists i :: 0 <= i < |targets| && targets[i] == t && PyMod(i, count) == index
    decreases |targets|
  {
    if |targets| > 0 {
      var n := |targets| - 1;
      var init := targets[..n];
      ShardMembers(init, count, index);
      forall t ensures t in Shard(targets, count, index) <==>
        exists i :: 0 <= i < |targets| && targets[i] == t && PyMod(i, count) == index
      {
        if t in Shard(init, count, index) {
          var i :| 0 <= i < |init| && init[i] == t && PyMod(i, count) == index;
          assert targets[i] == t;
        }
        if exists i :: 0 <= i < |targets| && targets[i] == t && PyMod(i, count) == index {
          var i :| 0 <= i < |targets| && targets[i] == t && PyMod(i, count) == index;
          if i < n {
            assert init[i] == t;
          }
        }
      }
    }
  }

  /**
   For a positive count and an index below it, the shard is every `count`-th target starting
   at position `index`, up to the end of the list.
   */
  lemma {:induction false} ShardStride(targets: seq<string>, count: int, index: int)
    requires 0 <= index < count
    ensures |targets| <= index + |Shard(targets, count, index)| * count
    ensures forall j :: 0 <= j < |Shard(targets, count, index)| ==>
      index + j * count < |targets| && Shard(targets, count, index)[j] == targets[index + j * count]
    decreases |targets|
  {
    if |targets| > 0 {
      var n := |targets| - 1;
      var init := targets[..n];
      ShardStride(init, count, index);
      var s := Shard(init, count, index);
      if PyMod(n, count) == index {
        StrideHit(n, count, index, |s|);
      } else {
        StrideMiss(n, count, index, |s|);
      }
    }
  }

  /** The next position of a shard is the one just past the previous ones. */
  lemma StrideHit(n: int, count: int, index: int, k: int)
    requires 0 <= index < count && 0 <= n && 0 <= k && PyMod(n, count) == index
    requires n <= index + k * count
    requires forall j :: 0 <= j < k ==> index + j * count < n
    ensures n == index + k * count
  {
    PyModSpec(n, count);
    var q := PyDiv(n, count);
    if q < 0 {
      MulAtLeast(-q, count);
      assert false;
    }
    if q > k {
      MulAtLeast(q - k, count);
      assert false;
    }
    if q < k {
      assert false;
    }
  }

  /** A position outside the shard is not the next one of the shard. */
  lemma StrideMiss(n: int, count: int, index: int, k: int)
    requires 0 <= index < count && 0 <= n && PyMod(n, count) != index
    requires n <= index + k * count
    ensures n + 1 <= index + k * count
  {
    if n == index + k * count {
      ModUnique(n, count, k, index);
      assert false;
    }
  }

  /** An index the remainder can never take (negative, or not below the count) selects nothing. */
  lemma {:induction false} ShardOutOfRange(targets: seq<string>, count: int, index: int)
    requires count > 0 && (index < 0 || index >= count)
    ensures Shard(targets, count, index) == []
    decreases |targets|
  {
    if |targets| > 0 {
      ShardOutOfRange(targets[..|targets| - 1], count, index);
      PyModSpec(|targets| - 1, count);
    }
  }

  /** With a negative count the remainders are negative: `shard_index` must lie in `(count, 0]`. */
  lemma NegativeCountExample()
    ensures Shard(["a", "b", "c"], -2, -1) == ["b"]
    ensures Shard(["a", "b", "c"], -2, 0) == ["a", "c"]
  {
    var ts := ["a", "b", "c"];
    assert PyMod(0, -2) == 0 && PyMod(1, -2) == -1 && PyMod(2, -2) == 0;
    assert ts[..2] == ["a", "b"];
    assert ts[..2][..1] == ["a"];
    assert ts[..2][..1][..0] == [];
    assert Shard(["a"], -2, -1) == [] && Shard(["a"], -2, 0) == ["a"];
    assert Shard(["a", "b"], -2, -1) == ["b"] && Shard(["a", "b"], -2, 0) == ["a"];
  }

  /** The union of the first `k` shards. */
  function Shards(targets: seq<string>, count: int, k: nat): multiset<string>
    requires count > 0
  {
    if k == 0 then multiset{} else Shards(targets, count, k - 1) + multiset(Shard(targets, count, k - 1))
  }

  /** `t` once when `b` holds, nothing otherwise. */
  function Once(t: string, b: bool): multiset<string> {
    if b then multiset{t} else multiset{}
  }

  /** The last target belongs to the shard of its position, and to no other. */
  lemma ShardLast(targets: seq<string>, count: int, index: int)
    requires count != 0 && |targets| > 0
    ensures var n := |targets| - 1;
      multiset(Shard(targets, count, index)) ==
      multiset(Shard(targets[..n], count, index)) + Once(targets[n], PyMod(n, count) == index)
  {
  }

  /** Of the first `k` shards, the last target is in one exactly when its remainder is below `k`. */
  lemma {:induction false} ShardsLast(targets: seq<string>, count: int, k: nat)
    requires count > 0 && |targets| > 0
    ensures var n := |targets| - 1;
      Shards(targets, count, k) == Shards(targets[..n], count, k) + Once(targets[n], PyMod(n, count) < k)
  {
    var n := |targets| - 1;
    var m := PyMod(n, count);
    if k > 0 {
      var a, b := Shards(targets[..n], count, k - 1), multiset(Shard(targets[..n], count, k - 1));
      var a', b' := Shards(targets, count, k - 1), multiset(Shard(targets, count, k - 1));
      ShardsLast(targets, count, k - 1);
      ShardLast(targets, count, k - 1);
      AddOnce(a, b, a', b', targets[n], m, k);
    } else {
      PyModSpec(n, count);
    }
  }

  /** Adding `t` to the first `k - 1` shards or to shard `k - 1` adds it to the first `k`. */
  lemma AddOnce(a: multiset<string>, b: multiset<string>, a': multiset<string>, b': multiset<string>,
                t: string, m: int, k: int)
    requires a' == a + Once(t, m < k - 1) && b' == b + Once(t, m == k - 1)
    ensures a' + b' == (a + b) + Once(t, m < k)
  {
  }

  /**
   The shards `0, ..., count - 1` together hold every target exactly once: they split the
   target list without loss or duplication, so their sizes add up to its length.
   */
  lemma {:induction false} ShardsPartition(targets: seq<string>, count: int)
    requires count > 0
    ensures Shards(targets, count, count) == multiset(targets)
    decreases |targets|
  {
    if |targets| == 0 {
      ShardsEmpty(count, count);
    } else {
      var n := |targets| - 1;
      ShardsPartition(targets[..n], count);
      assert targets == targets[..n] + [targets[n]];
      ShardsLast(targets, count, count);
      PyModSpec(n, count);
    }
  }

  lemma {:induction false} ShardsEmpty(count: int, k: nat)
    requires count > 0
    ensures Shards([], count, k) == multiset{}
  {
    if k > 0 {
      ShardsEmpty(count, k - 1);
    }
  }
}

=== FILE: text.dfy ===
/**
 The handful of Python `str` operations the build tools use: `upper`, `replace` of one
 character, `split` on a non-empty separator, `join`, `startswith` and `endswith`.
 */
module Text {
  import opened Results

  predicate IsDigit(c: char) {
    '0' <= c <= '9'
  }

  /** `c.upper()` for ASCII letters; every other character is left alone. */
  function UpperChar(c: char): char {
    if 'a' <= c <= 'z' then (c as int - 32) as char else c
  }

  /** `s.upper()`, character by character. */
  function Upper(s: string): (r: string)
    ensures |r| == |s|
    ensures forall i :: 0 <= i < |s| ==> r[i] == UpperChar(s[i])
  {
    seq(|s|, i requires 0 <= i < |s| => UpperChar(s[i]))
  }

  /** `s.replace(a, b)` for single characters `a` and `b`. */
  function ReplaceChar(s: string, a: char, b: char): (r: string)
    ensures |r| == |s|
    ensures forall i :: 0 <= i < |s| ==> r[i] == if s[i] == a then b else s[i]
  {
    seq(|s|, i requires 0 <= i < |s| => if s[i] == a then b else s[i])
  }

  predicate StartsWith(s: string, prefix: string) {
    |prefix| <= |s| && s[..|prefix|] == prefix
  }

  predicate EndsWith(s: string, suffix: string) {
    |suffix| <= |s| && s[|s| - |suffix|..] == suffix
  }

  /** `sep` occurs in `s` starting at position `j`. */
  predicate OccursAt(s: string, sep: string, j: int) {
    0 <= j && j + |sep| <= |s| && s[j..j + |sep|] == sep
  }

  /** `sep in s`. */
  predicate Contains(s: string, sep: string) {
    exists j :: 0 <= j <= |s| - |sep| && OccursAt(s, sep, j)
  }

  /** `s.find(sep)`: the first position where `sep` occurs, if any. */
  function Find(s: string, sep: string): (r: Option<nat>)
    ensures r.Some? ==> OccursAt(s, sep, r.value)
    ensures r.Some? ==> forall j :: 0 <= j < r.value ==> !OccursAt(s, sep, j)
    ensures r.None? <==> !Contains(s, sep)
    decreases |s|
  {
    if |s| < |sep| then None
    else if s[..|sep|] == sep then Some(0)
    else
      var rest := Find(s[1..], sep);
      assert !OccursAt(s, sep, 0) by {
        assert s[0..|sep|] == s[..|sep|];
      }
      forall j | 0 <= j
        ensures OccursAt(s[1..], sep, j) <==> OccursAt(s, sep, j + 1)
      {
        OccursShift(s, sep, j);
      }
      if rest.None? then
        assert !Contains(s, sep) by {
          forall j | 0 <= j <= |s| - |sep| ensures !OccursAt(s, sep, j) {
            if j > 0 {
              assert !OccursAt(s[1..], sep, j - 1);
            }
          }
        }
        None
      else
        assert forall j :: 0 <= j < rest.value + 1 ==> !OccursAt(s, sep, j) by {
          forall j | 0 < j < rest.value + 1 ensures !OccursAt(s, sep, j) {
            assert !OccursAt(s[1..], sep, j - 1);
          }
        }
        Some(rest.value + 1)
  }

  /** An occurrence in `s[1..]` is an occurrence in `s` one position further on. */
  lemma OccursShift(s: string, sep: string, j: int)
    requires |s| > 0 && 0 <= j
    ensures OccursAt(s[1..], sep, j) <==> OccursAt(s, sep, j + 1)
  {
    if j + 1 + |sep| <= |s| {
      var a, b := s[1..][j..j + |sep|], s[j + 1..j + 1 + |sep|];
      assert |a| == |b|;
      forall k | 0 <= k < |a| ensures a[k] == b[k] {
        assert a[k] == s[j + 1 + k];
      }
      assert a == b;
    }
  }

  /** An occurrence of `sep` cuts `s` into what precedes it, `sep` and what follows it. */
  lemma CutAt(s: string, sep: string, i: int)
    requires OccursAt(s, sep, i)
    ensures s == s[..i] + sep + s[i + |sep|..]
  {
    assert s == s[..i] + s[i..i + |sep|] + s[i + |sep|..];
  }

  /** `sep.join(parts)`. */
  function Join(sep: string, parts: seq<string>): string
  {
    if |parts| == 0 then ""
    else if |parts| == 1 then parts[0]
    else parts[0] + sep + Join(sep, parts[1..])
  }

  /**
   `s.split(sep)` for a non-empty separator: the pieces between the occurrences of `sep`,
   scanning left to right. There is always at least one piece, and joining the pieces with
   `sep` gives back `s`; `SplitPieces` shows that no piece contains `sep`.
   */
  function Split(s: string, sep: string): (parts: seq<string>)
    requires |sep| > 0
    ensures |parts| >= 1
    ensures Join(sep, parts) == s
    decreases |s|
  {
    match Find(s, sep)
    case None => [s]
    case Some(i) =>
      var head := s[..i];
      var tail := Split(s[i + |sep|..], sep);
      CutAt(s, sep, i);
      var parts := [head] + tail;
      assert parts[1..] == tail;
      parts
  }

  // ---------------------------------------------------------------------
  // Lemmas
  // ---------------------------------------------------------------------

  /** No piece of a split contains the separator. */
  lemma {:induction false} SplitPieces(s: string, sep: string)
    requires |sep| > 0
    ensures forall i :: 0 <= i < |Split(s, sep)| ==> !Contains(Split(s, sep)[i], sep)
    decreases |s|
  {
    match Find(s, sep)
    case None =>
    case Some(i) =>
      var head := s[..i];
      var rest := s[i + |sep|..];
      SplitPieces(rest, sep);
      assert !Contains(head, sep) by {
        forall j | 0 <= j <= |head| - |sep| ensures !OccursAt(head, sep, j) {
          assert head[j..j + |sep|] == s[j..j + |sep|];
          assert !OccursAt(s, sep, j);
        }
      }
      assert Split(s, sep) == [head] + Split(rest, sep);
  }

  /** A split has a second piece exactly when the separator occurs. */
  lemma SplitHasSecond(s: string, sep: string)
    requires |sep| > 0
    ensures |Split(s, sep)| >= 2 <==> Contains(s, sep)
  {
  }

  /** `sep` occurs at `i` and nowhere before it. */
  predicate FirstAt(s: string, sep: string, i: int) {
    OccursAt(s, sep, i) && forall k :: 0 <= k < i ==> !OccursAt(s, sep, k)
  }

  /**
   `piece` is the first piece of `t` split on `sep`: a prefix of `t` in which no occurrence
   of `sep` starts, followed by the end of `t` or by `sep`.
   */
  predicate LeadingPiece(t: string, sep: string, piece: string) {
    && piece <= t
    && (|piece| == |t| || OccursAt(t, sep, |piece|))
    && forall k :: 0 <= k < |piece| ==> !OccursAt(t, sep, k)
  }

  /**
   `piece` is the second piece of `s` split on `sep`: it starts right after the first
   occurrence of `sep` and runs to the next occurrence or, when there is none, to the end.
   `SecondPieceUnique` shows that this fixes the piece.
   */
  ghost predicate SecondPieceOf(s: string, sep: string, piece: string) {
    exists i :: FirstAt(s, sep, i) && LeadingPiece(s[i + |sep|..], sep, piece)
  }

  /** The first piece `split` returns runs to the first `sep` or the end. */
  lemma FirstPiece(t: string, sep: string)
    requires |sep| > 0
    ensures LeadingPiece(t, sep, Split(t, sep)[0])
  {
  }

  /** The second piece `split` returns lies between the first `sep` and the next one (or the end). */
  lemma SecondPiece(s: string, sep: string)
    requires |sep| > 0 && |Split(s, sep)| >= 2
    ensures SecondPieceOf(s, sep, Split(s, sep)[1])
  {
    var i := Find(s, sep).value;
    assert FirstAt(s, sep, i);
    FirstPiece(s[i + |sep|..], sep);
  }

  /**
   There is at most one second piece, and it does not contain the separator: reading
   `s.split(sep)[1]` off the string leaves no choice.
   */
  lemma SecondPieceUnique(s: string, sep: string, a: string, b: string)
    requires |sep| > 0 && SecondPieceOf(s, sep, a) && SecondPieceOf(s, sep, b)
    ensures a == b
    ensures !Contains(a, sep)
  {
    var i :| FirstAt(s, sep, i) && LeadingPiece(s[i + |sep|..], sep, a);
    var i' :| FirstAt(s, sep, i') && LeadingPiece(s[i' + |sep|..], sep, b);
    FirstAtUnique(s, sep, i, i');
    LeadingPieceUnique(s[i + |sep|..], sep, a, b);
    LeadingPieceFree(s[i + |sep|..], sep, a);
  }

  /** There is one first occurrence. */
  lemma FirstAtUnique(s: string, sep: string, i: int, i': int)
    requires FirstAt(s, sep, i) && FirstAt(s, sep, i')
    ensures i == i'
  {
  }

  /** There is one first piece. */
  lemma LeadingPieceUnique(t: string, sep: string, a: string, b: string)
    requires LeadingPiece(t, sep, a) && LeadingPiece(t, sep, b)
    ensures a == b
  {
    assert a == t[..|a|] && b == t[..|b|];
  }

  /** A first piece contains no separator. */
  lemma LeadingPieceFree(t: string, sep: string, a: string)
    requires |sep| > 0 && LeadingPiece(t, sep, a)
    ensures !Contains(a, sep)
  {
    forall m | 0 <= m <= |a| - |sep| ensures !OccursAt(a, sep, m) {
      assert a[m..m + |sep|] == t[m..m + |sep|];
      assert !OccursAt(t, sep, m);
    }
  }

  /** Upper-casing twice is upper-casing once. */
  lemma UpperIdempotent(s: string)
    ensures Upper(Upper(s)) == Upper(s)
  {
  }

  /** Replacing a character by a different one twice is replacing it once. */
  lemma ReplaceCharIdempotent(s: string, a: char, b: char)
    requires a != b
    ensures ReplaceChar(ReplaceChar(s, a, b), a, b) == ReplaceChar(s, a, b)
  {
  }

  /** A one-character separator occurs exactly where that character is. */
  lemma ContainsChar(s: string, c: char)
    ensures Contains(s, [c]) <==> c in s
  {
    if c in s {
      var j :| 0 <= j < |s| && s[j] == c;
      assert s[j..j + 1] == [c];
      assert OccursAt(s, [c], j);
    } else {
      forall j | 0 <= j < |s| ensures !OccursAt(s, [c], j) {
        assert s[j..j + 1][0] == s[j];
      }
    }
  }

  /**
   Splitting `head + sep + rest` on a one-character separator that `head` does not
   contain: `head` is the first piece and the rest is split on its own.
   */
  lemma SplitAtFirst(head: string, sep: string, rest: string)
    requires |sep| == 1 && sep[0] !in head
    ensures Split(head + sep + rest, sep) == [head] + Split(rest, sep)
  {
    var s := head + sep + rest;
    var n := |head|;
    assert sep == [sep[0]];
    assert OccursAt(s, sep, n) by {
      assert s[n..n + 1] == sep;
    }
    forall j | 0 <= j < n ensures !OccursAt(s, sep, j) {
      assert s[j] == head[j];
      assert s[j..j + 1] == [s[j]];
    }
    var f := Find(s, sep);
    assert Contains(s, sep);
    assert f.value == n;
    assert s[..n] == head;
    assert s[n + 1..] == rest;
  }

  /** A string that starts with the separator, once: an empty first piece and the rest. */
  lemma SplitLeading(sep: string, rest: string)
    requires |sep| > 0 && !Contains(rest, sep)
    ensures Split(sep + rest, sep) == ["", rest]
  {
    var s := sep + rest;
    assert s[..|sep|] == sep;
    assert Find(s, sep) == Some(0);
    assert s[|sep|..] == rest;
    assert Split(rest, sep) == [rest];
  }

  /**
   Splitting on a one-character separator undoes joining, when no piece contains that
   character: `sep.join(parts).split(sep) == parts`.
   */
  lemma {:induction false} SplitJoin(sep: string, parts: seq<string>)
    requires |sep| == 1 && |parts| >= 1
    requires forall i :: 0 <= i < |parts| ==> sep[0] !in parts[i]
    ensures Split(Join(sep, parts), sep) == parts
    decreases |parts|
  {
    if |parts| == 1 {
      assert sep == [sep[0]];
      ContainsChar(parts[0], sep[0]);
    } else {
      SplitAtFirst(parts[0], sep, Join(sep, parts[1..]));
      SplitJoin(sep, parts[1..]);
      assert [parts[0]] + parts[1..] == parts;
    }
  }
}
